=== FILE: README.md ===
# Run Krishna Run — a Dafny model of the game loop and its controls

This project models the core of a browser "flappy bird" game. The model is pure
Dafny: immutable datatypes, total functions, and lemmas about them.

- **Simulation** (`simulation.dfy`) is one frame of the game loop in
  `src/app/page.tsx`:
  - gravity moves the player, and the player is tested against the canvas bounds;
  - every pipe moves left by its own speed and is tested against the player
    with the strict rectangle overlap `rectCol`;
  - a pipe scores one point the first time it is passed;
  - pipes whose right edge is at or left of x = -40 are dropped;
  - every `spawnRate` frames a new pipe is appended.

  The frame's random draws, the canvas size and the number of decoded pipe
  images are parameters. `endGame` is a flag in the tick's result. The rest of
  the frame still runs after it, as it does in the source.
- **Round** (`round.dfy`) is the page's phase machine:
  - the phases loading → ready → playing → over;
  - `resetGame`, `startGame`, `endGame` with the high-score update, `jump` and
    `handleLevelChange`;
  - the effects that react to loading, to decoded images and to the remote
    level list;
  - an animation frame that runs the tick only while playing.
- **LevelMerge** (`level_merge.dfy`) merges the four built-in presets with the
  levels stored remotely, then picks the current level again.
- **GameConfig** (`game_config.dfy`) holds the level record, the four presets
  and the two small enumerations of `src/lib/game-config.ts`.
- **Theme** (`theme.dfy`) is the hour-of-day theme classifier and the rule that
  swaps the theme class on the page body.
- **Admin** (`admin.dfy`) holds the pure rules of the admin page:
  - the id derived from a new level's name, and the check that rejects an empty one;
  - the draft writes;
  - the upload request for each asset kind;
  - the `arrayUnion`/`arrayRemove` updates of the asset document;
  - publishing, as a batch of deletes and writes that leaves the published
    levels equal to the drafts.
- **Common** (`common.dfy`) provides `Option`, `Result`, an order-preserving
  `Filter`, and the subsequence relation.

Numbers are Dafny `real`. `Math.floor` is `.Floor`. `Math.random()` is a draw
in [0, 1) passed in by the caller. The clock hour, the environment's
configuration values and the success of a database batch are parameters too.

Behaviour of the code that is easy to miss:
- The game loop in `src/app/page.tsx` has no power-ups, collectibles, weather
  or game modes. Every pipe's gap is exactly the level's `gap`, and pipes never
  move vertically.
- `handleLevelChange` ignores an id that names no level, and resets the round
  only when it is playing or over.
- The remote-levels effect can swap the current level in the middle of a round
  without a reset. `OnRemoteLevels` models this.
- A level name made only of blanks gives the id `---`. That id is not empty, so
  the "Level name cannot be empty" check lets it through. Only the empty name is
  rejected (`SlugEmptyIffNameEmpty`).
- The resize effect re-runs on every phase change and resets any round that is
  not playing, so the "over" screen already shows an emptied round (`Resize`).

## Model

| member | source | states |
|---|---|---|
| Simulation.Tick | src/app/page.tsx:208-263 | With no decoded pipe image the frame changes nothing and does not end the round. Otherwise the frame counter rises by one. The velocity becomes `vel + gravity` and then `y` moves by the new velocity. The player's x, width and height are unchanged. The score does not decrease and rises by at most the number of pipes. |
| Simulation.Fall | src/app/page.tsx:218-219 | Gravity is added to the velocity first. The new velocity then moves `y`, and the box is otherwise unchanged. |
| Simulation.OutOfBounds | src/app/page.tsx:221-223 | The player is out of the canvas when its top is above 0 or its bottom is below `ch`. |
| Simulation.RectColSymmetric | src/app/page.tsx:225-227 | Swapping the two rectangles of `rectCol` gives the same answer. |
| Simulation.RectColIffCommonPoint | src/app/page.tsx:225-227 | For rectangles of positive size, `rectCol` holds iff the rectangles share a point strictly inside both. |
| Simulation.InsideGapIsSafe | src/app/page.tsx:231-234 | A player wholly between the lower edge of the top segment and the upper edge of the bottom segment collides with neither segment. |
| Simulation.HitsPipeIffTouches | src/app/page.tsx:231-234 | A shared interior point with a segment is a hit. A hit is a shared interior point, unless the segment has no height. A hit on a segment without height already puts the player outside the canvas. |
| Simulation.AboveGapIsHit | src/app/page.tsx:231-234 | A player that overlaps the pipe's columns and pokes above the gap, while still reaching below the canvas top, hits the top segment. |
| Simulation.HitsPipe | src/app/page.tsx:231-234 | A pipe hits the player when `rectCol` holds for the player and the top segment `(x, 0, w, top)`, or for the bottom segment `(x, ch - bottom, w, bottom)`. |
| Simulation.TickEndsIffCollision | src/app/page.tsx:221-236 | For a player of positive width and height and pipes of positive width, the frame asks for the end exactly when one of two things holds after the fall. Either the player is above the top or below the bottom of the canvas. Or the player shares an interior point with the top or bottom segment of some pipe, at that pipe's moved position. Segments of any height are allowed, including the zero-height top a short canvas can spawn. |
| Simulation.Advance | src/app/page.tsx:230-240 | A pipe moves left by exactly its stored speed. Its width, heights, speed and skin never change. A passed pipe stays passed. An unpassed pipe becomes passed exactly when its moved right edge is left of the player's x. |
| Simulation.AdvanceAll | src/app/page.tsx:229-241 | Every pipe is advanced in place, with the list's length and order kept. |
| Simulation.Gained | src/app/page.tsx:237-240 | The points of one frame are the pipes not passed before the frame and passed after it, so there are at most as many as pipes. |
| Simulation.AdvanceCountsGained | src/app/page.tsx:237-240 | The number of passed pipes grows by exactly the points the frame awards, so each point corresponds to one pipe whose flag flipped. |
| Simulation.TickKeepsScoreLedger | src/app/page.tsx:237-243 | Suppose the score equals the passed pipes already dropped plus the passed pipes still listed. After a frame this still holds, with this frame's dropped passed pipes added. So the score counts every pipe ever marked passed, each once. |
| Simulation.Collect | src/app/page.tsx:243-263 | The frame's pipe list is the on-screen moved pipes. On a spawn frame exactly `NewPipe` of the frame's draws follows them. A spawn does not change the count of passed pipes. |
| Simulation.TickCollectsPipes | src/app/page.tsx:243-263 | After a frame (canvas width at least 0) every pipe has `x + w > -40`. The pipes other than a fresh spawn are a subsequence of the moved pipes, so their relative order is kept. Every moved pipe still on screen survives. |
| Simulation.TickSpawns | src/app/page.tsx:245-263 | The spawn test uses the incremented frame counter. On a spawn frame exactly one pipe, the new one, is appended after the survivors. Otherwise the survivors are the whole list. |
| Simulation.NewPipe | src/app/page.tsx:247-262 | A spawned pipe starts at `cw + 30`, unpassed, with the level's speed. Its width is `PipeWidth(cw)`, its top is `TopHeight(ch, gap, r1)` and its image is `SkinIndex(skins, r2)`. Its heights satisfy `top + gap + bottom = ch`. When `ch - gap - 120 >= 90`, the top is at least 90 and the bottom at least 120. |
| Simulation.TopHeight | src/app/page.tsx:248-250 | The top height is a whole number: the floor of `90 + r * (ch - gap - 120 - 90)`. When the canvas leaves room for it, it lies between 90 and `ch - gap - 120`. |
| Simulation.PipeWidth | src/app/page.tsx:251 | The pipe width is 12% of the canvas width clamped to [60, 140]. It is 60 when 12% is at most 60, 140 when 12% is at least 140, and 12% otherwise. |
| Simulation.SkinIndex | src/app/page.tsx:252 | The pipe image index is the floor of `r * skins`, so it is always a valid index. |
| Simulation.SpawnDue | src/app/page.tsx:245-246 | A frame spawns iff JavaScript's `frame % spawnRate` is 0. That is never for a zero rate, because the remainder is NaN. For any other rate it is iff the frame is a multiple of the rate's magnitude. |
| Simulation.JsRem | src/app/page.tsx:246 | JavaScript's `%` on integers is NaN exactly for a zero divisor. Otherwise the remainder has the dividend's sign and is smaller in magnitude than the divisor, and subtracting it leaves a multiple of the divisor. |
| Simulation.SpawnsEveryRateFrames | src/app/page.tsx:245-246 | Over the first n frames of a round exactly `n / abs(spawnRate)` pipes are spawned. A zero rate spawns none, because the JavaScript remainder is NaN. |
| Simulation.FirstSpawnAtRate | src/app/page.tsx:245-246 | For a positive rate, frames 1 to rate-1 do not spawn and frame `rate` does, so a round's first pipe appears on frame `spawnRate`. |
| Round.ResetWorld | src/app/page.tsx:163-182 | A reset empties the pipes and zeroes the frame and the score. The player stands at x = 120, halfway down the canvas, at rest. The width is the smaller of 120 and 12% of the canvas width, and the height is 0.75 of the width. A player that fits in the lower half starts inside the bounds. |
| Round.StartGame | src/app/page.tsx:184-188 | Without decoded images nothing changes. Otherwise the round is reset and playing. The levels, the high score and the image flag are unchanged. The session invariant is kept. |
| Round.EndGame | src/app/page.tsx:190-196 | The round is over and the high score becomes the larger of the old high score and the final score. The round, the levels and the image flag are unchanged. The session invariant is kept. |
| Round.Jump | src/app/page.tsx:198-206 | While playing, the velocity becomes the level's lift whatever it was. The player's position and size, the pipes, the score and the frame are untouched. From ready or over with images decoded, a fresh round starts: the reset player box, no pipes, zero score, with the lift. While loading, or from ready or over without images, nothing happens. A playing round takes the lift even without images, as after an asset reload. The levels, the high score and the image flag are unchanged. The session invariant is kept. |
| Round.HandleLevelChange | src/app/page.tsx:334-343 | An id that names no level changes nothing. A known id makes the first level with that id current. A round that is playing or over is reset to ready, and a loading or ready page keeps its phase and world. The level list, the high score and the image flag are unchanged. The session invariant is kept. |
| Round.OnRemoteLevels | src/app/page.tsx:121-143 | With no remote list nothing changes. Otherwise the levels become the presets merged with the remote list. If the current id is still present, the current level becomes the first merged level with that id, as `find` returns. Otherwise it becomes the first level. The phase, the round, the high score and the image flag are unchanged. The session invariant is kept. |
| Round.OnDataLoading | src/app/page.tsx:146-152 | The page is ready iff neither the levels nor the assets are loading, and loading otherwise. The round, the levels, the current level, the high score and the image flag are unchanged. The session invariant is kept. |
| Round.OnImagesDecoded | src/app/page.tsx:154-160 | The first time the images finish decoding, a loading or ready page resets the round and shows ready. A running or finished round is left alone. Afterwards the session is valid whenever it has a listed level, so a decode repairs a reload. |
| Round.OnAssetsChanged | src/app/page.tsx:54-118 | When the asset document changes and every image URL is at hand, the image flag drops to false in every phase, including a running round, which then breaks the session invariant. With a URL missing nothing changes. The phase, the round, the levels and the high score are kept. |
| Round.Resize | src/app/page.tsx:289-305 | The resize effect runs again on every phase change. Outside a running round it resets the round for the new canvas, and it never touches the phase, the levels or the high score. A running round is left alone. The session invariant is kept. |
| Round.EndThenResizeClears | src/app/page.tsx:190-196 | Because the phase change to over re-runs the resize effect, a finished round shows no pipes and a zero score, while the high score keeps the final score. |
| Round.AnimationFrame | src/app/page.tsx:208-223 | Frames run only while playing with the images decoded, since the canvas is not mounted otherwise (src/app/page.tsx:345). A frame whose tick asks for the end moves the round to over with a high score at least the final score. Score and high score never decrease. The session invariant is kept. |
| Round.RunMonotone | src/app/page.tsx:190-196 | Over any run of frames without input, neither the score nor the high score decreases. The level stays the same, and a finished round stays finished. |
| Round.RunEndRecordsScore | src/app/page.tsx:190-196 | If a playing round ends during a run of frames, the high score is at least its final score. |
| Round.Run | src/app/page.tsx:307-316 | Frames scheduled without input never change the level, the level list or the image flag, and keep the session invariant. |
| Round.InitialSession | src/app/page.tsx:35-47 | Before any event the page is loading, with no images. The presets are the levels, "easy" is current, the round is empty and the stored high score is kept. The session is valid: there are levels, the current level is listed, and no round runs without images. |
| Round.Step | src/app/page.tsx:54-343 | No event lowers the high score or loses the listed current level. Every event other than an asset reload keeps the session valid, and a reload during play breaks it. The events are a jump, a level pick, the remote levels, the loading flags, an asset reload, the image decode, a resize and a frame. |
| Round.StepsKeepValid | src/app/page.tsx:54-343 | Any sequence of events keeps a listed current level and a high score at least the starting one. Without an asset reload, a valid session stays valid. A resize changes the canvas size the later events use. |
| Round.ReachableSessionsValid | src/app/page.tsx:35-343 | Every session reachable from the first render has a listed current level and a high score at least the stored one. It is valid when no asset reload happened on the way. |
| Round.ReloadDuringPlayStalls | src/app/page.tsx:76-77 | A reload during play leaves the phase at playing without images. Frames then change nothing, because the loop finds no canvas (src/app/page.tsx:211, 345). The next decode makes the session valid again without resetting the round. |
| Round.HandleLevelChangeIdempotent | src/app/page.tsx:334-343 | Picking the same level twice in a row has the effect of picking it once. |
| LevelMerge.FindIndex | src/app/page.tsx:131 | `findIndex` returns the first position with the id, or -1 exactly when no level has it. |
| LevelMerge.MergeOne | src/app/page.tsx:126-135 | One remote level never changes an id already in a slot and never touches a level with a different id. A non-preset id grows the list by one, ending in that level. A preset id keeps the length and puts the level in the list when its slot exists. |
| LevelMerge.Merge | src/app/page.tsx:121-136 | The merged list is as long as the presets plus the appended non-preset levels, and each preset slot keeps its preset's id. |
| LevelMerge.MergeShape | src/app/page.tsx:121-136 | For presets with distinct ids, the merge keeps every preset slot in place. A slot holds the last remote level with that preset's id if there is one. The other remote levels follow in their remote order. |
| LevelMerge.StepFresh | src/app/page.tsx:127-128 | A remote level with a non-preset id leaves every preset slot alone and is appended. |
| LevelMerge.StepReplace | src/app/page.tsx:129-134 | A remote level with a preset id overwrites exactly that preset's slot. |
| LevelMerge.Appended | src/app/page.tsx:126-128 | The appended levels all come from the remote list and none carries a preset id. |
| LevelMerge.ChooseCurrent | src/app/page.tsx:140 | The chosen level is in the list. When some level has the current id, it is the first level with that id, as `find` returns. Otherwise it is the first level. |
| LevelMerge.MergedDefaultsKeepSlots | src/app/page.tsx:121-136 | After merging with the built-in presets, the first four slots carry the ids easy, normal, hard and insane in that order. Every later entry is a remote level with a non-preset id. |
| GameConfig.DefaultLevelsShape | src/lib/game-config.ts:64-101 | There are exactly four presets, with the distinct ids easy, normal, hard and insane, and easy comes first. |
| GameConfig.DefaultLevelsPlayable | src/lib/game-config.ts:64-101 | Every preset has positive gravity, negative lift, and positive gap, speed and spawn rate. |
| GameConfig.DefaultLevelsMonotone | src/lib/game-config.ts:64-101 | Along the list gravity and speed strictly rise, while lift (a stronger upward jump), gap and spawn interval strictly fall. |
| GameConfig.DirectionOf | src/lib/game-config.ts:33 | Only 1 and -1 are directions, and each maps back to its number. |
| GameConfig.DirectionRoundTrip | src/lib/game-config.ts:33 | A direction survives the trip to its number and back. |
| GameConfig.KindOf | src/lib/game-config.ts:42 | Only the four names coin, shield, slowMo and doubleScore are collectible kinds, and each parses back to its name. |
| GameConfig.KindRoundTrip | src/lib/game-config.ts:42 | A collectible kind survives the trip to its name and back. |
| Theme.GetTheme | src/components/ThemeProvider.tsx:7-19 | Every hour yields one of four values: the morning, evening or night class, or no class. |
| Theme.ThemeBands | src/components/ThemeProvider.tsx:9-18 | Hours 5-11 give morning, 12-17 no class, 18-20 evening, and 0-4 and 21-23 night. |
| Theme.ApplyTheme | src/components/ThemeProvider.tsx:40-45 | Afterwards a theme class is present iff it is the applied theme. The other classes are exactly the old ones, in the old order. A non-empty theme is added once, at the end. |
| Theme.ApplyThemeKeepsDistinct | src/components/ThemeProvider.tsx:40-45 | The body's classes are a set of tokens: a class list without repeats stays without repeats after a switch. |
| Theme.AtMostOneThemeClass | src/components/ThemeProvider.tsx:40-45 | After a switch no two body classes are theme classes. |
| Theme.ApplyThemeLastWins | src/components/ThemeProvider.tsx:40-45 | Two switches amount to the second alone, so applying the same theme twice is idempotent. |
| Admin.WithId | src/app/admin/page.tsx:108 | A draft read back under its document id keeps the id and all fields. |
| Admin.NewDraftFormIsNormalPreset | src/app/admin/page.tsx:62-69 | The new-draft form holds the normal preset's numbers with an empty name. |
| Admin.FormFor | src/app/admin/page.tsx:77-97 | Editing shows exactly the edited level's fields, and a new draft shows the defaults. |
| Admin.Slug | src/app/admin/page.tsx:229 | The id has the name's length and contains no whitespace and no upper-case letter. Each letter A-Z becomes its lower-case letter, whitespace becomes `-`, and every other character is kept. |
| Admin.SlugIdempotent | src/app/admin/page.tsx:229 | Slugging an id again gives the same id. |
| Admin.SlugEmptyIffNameEmpty | src/app/admin/page.tsx:229-234 | The id is empty iff the name is empty. |
| Admin.Submit | src/app/admin/page.tsx:218-247 | A submit fails iff it creates a level whose name is empty or whose id has an odd number of `/`, and then nothing is written. An id with an even, non-zero number of `/` names a document outside the drafts, so no draft changes. An edit overwrites the edited draft, or writes nothing if that draft is gone. A new id that the database reserves (`.`, `..`, `__x__`, over 1500 UTF-8 bytes) is reported as added, but no draft changes. Any other new draft without `/` lands under its id, and every other draft is unchanged. |
| Admin.Utf8Length | src/app/admin/page.tsx:235 | An id's length in UTF-8 bytes is between its length in characters and four times that, and equals it for an ASCII id. It decides the 1500-byte id limit. |
| Admin.ReservedNameWritesNothing | src/app/admin/page.tsx:229-238 | The name "__Boss__" gives the reserved id `__boss__`, and submitting it leaves the drafts as they were. |
| Admin.Slashes | src/app/admin/page.tsx:235 | The count of `/` in an id is zero iff the id has none. It decides how many path segments `game_levels/<id>` has. |
| Admin.DeleteDraft | src/app/admin/page.tsx:249-254 | Deleting a draft removes exactly that id and leaves the others as they were. |
| Admin.ResourceTypeOf | src/app/admin/page.tsx:163 | The resource type is video iff the asset is bgMusic, jumpSound or collisionSound. |
| Admin.Transformation | src/app/admin/page.tsx:165-169 | Video uploads ask for `br_128k` and image uploads for `w_1920,q_auto:good`. |
| Admin.PrepareUpload | src/app/admin/page.tsx:145-172 | The upload is refused iff the cloud name is absent or empty. Otherwise the endpoint names the cloud and the resource type. The fields are, in order, the file, the upload preset, the API key when one is configured, and the transformation. The API key field appears iff the key is non-empty, so there are exactly four fields with a key and three without. |
| Admin.ArrayUnion | src/app/admin/page.tsx:189 | Adding a pipe skin leaves the list unchanged when the skin is already there, and otherwise appends it once at the end. So no duplicate is ever added. |
| Admin.ArrayRemove | src/app/admin/page.tsx:213 | Removing a skin deletes every copy of it. Every other skin keeps its number of copies, and the length drops by the number of copies removed. |
| Admin.Upload | src/app/admin/page.tsx:186-196 | On an existing document a pipe skin goes through `arrayUnion`: appended once if absent, no change if present. Any other asset replaces only its own field. A missing document is created holding just the new asset. |
| Admin.DeletePipe | src/app/admin/page.tsx:210-214 | The skin leaves the pipe list. The other skins stay in order with their number of copies, and every single-asset field is unchanged. A missing document stays missing. |
| Admin.UploadThenDeletePipe | src/app/admin/page.tsx:186-214 | Deleting a freshly uploaded pipe skin restores the list it joined. |
| Admin.Publish | src/app/admin/page.tsx:99-129 | A failed batch changes nothing. After a committed batch the published ids are exactly the draft ids, each holding its draft's fields, with no stale level left. |
| Admin.DeletesClear | src/app/admin/page.tsx:110-113 | Deleting every listed published level empties the published set. |
| Admin.PutsWrite | src/app/admin/page.tsx:115-118 | Writing drafts with distinct ids puts each under its id and leaves the other entries alone. |
| Admin.ApplyBatchConcat | src/app/admin/page.tsx:105-120 | Committing two lists of writes in one batch is the same as committing the first and then the second. |
| Admin.ApplyBatchFrame | src/app/admin/page.tsx:105-120 | A committed batch can only add ids it writes to. Every id that no operation of the batch touches keeps its level. |

## Left out

- Drawing: the canvas clear, the background scroll, and drawing the pipes and the rotated player (src/app/page.tsx:265-284). These are rendering only.
- Image loading and the asset URL fallbacks (src/app/page.tsx:54-118). They are browser I/O. Only the effect's change of the image flag is modelled, by `OnAssetsChanged`; whether every URL is at hand is its parameter. The number of decoded pipe images is a parameter of `Tick`.
- The high score that the asset effect reads back from `localStorage` (src/app/page.tsx:57-58). `endGame` writes every new high score there, so the value read back is the high score the model already holds.
- Whether a frame is scheduled. A frame that finds no canvas returns without scheduling the next one, so a round stalled by a reload may stay frozen after the decode. The model treats every `Frame` event as a scheduled frame.
- The canvas resizing itself, `requestAnimationFrame`/`cancelAnimationFrame`, and the pointer and key listeners (src/app/page.tsx:289-332). These are browser scheduling and events. `Resize` is the effect's state change only, with the new CSS size as parameters. `AnimationFrame` is one scheduled frame and `Jump` is one accepted input.
- The early return of `resetGame` when there is no canvas. The model always has a canvas of size `cw` x `ch`.
- A frame that ends the round still finishes its drawing and schedules one more frame. The effect cleanup then cancels that frame. The model stops at the frame that ended.
- Round.AnimationFrame: passes the frame's own final score to `EndGame`. The source's `endGame` callback closes over the last rendered score, which can lag behind the points scored in the same frame. That is React closure staleness.
- Reading and writing the high score in `localStorage` (src/app/page.tsx:57-58, 194). Only the `max` update of the high score is modelled, and the stored value is a parameter of `InitialSession`.
- Simulation.SpawnDue: `spawnRate` is an integer. JavaScript's remainder on a fractional rate is not modelled.
- Round.RunEndRecordsScore: holds because `AnimationFrame` ends the round with the frame's own final score. It inherits that line's gap: the source's `endGame` can record the last rendered score instead.
- Admin.Submit: treats every segment between `/` as non-empty. The database client's handling of empty segments (`a//b`, a leading or trailing `/`) is not modelled.
- Floating-point rounding. Arithmetic is exact over `real`.
- The unused `Pipe` fields `oscillate`, `yOffset`, `direction` and `gap`, and the unused `Particle` and `FloatingText` records (src/lib/game-config.ts:24-60). The game loop never reads them. Only the `direction` and collectible-kind enumerations are modelled.
- Admin.Slug: lowercases only the ASCII letters A-Z. JavaScript's `toLowerCase` also folds other scripts, and for a few characters (such as U+0130) it changes the string's length.
- The slider and text-input change handlers of the admin form, including `Number(value)` parsing (src/app/admin/page.tsx:132-139). This is UI state.
- The network part of uploads (src/app/admin/page.tsx:171-182, 198-207): the request itself, the response check and the error toast. A failed upload writes nothing, so `Upload` describes only a successful one.
- Authentication, admin access checks, redirects, toasts and the busy flags of the admin page. These are UI and identity glue.
- The theme's one-minute refresh timer (src/components/ThemeProvider.tsx:29-38). The hour is a parameter of `GetTheme`.
- The login and account pages, the Firebase hooks and providers, and the AI flows (src/app/login, src/app/account, src/firebase, src/ai). They are identity and external services. The model covers `src/app/page.tsx`, `src/app/admin/page.tsx`, `src/lib/game-config.ts` and `src/components/ThemeProvider.tsx`.

=== FILE: admin.dfy ===
/** The pure rules of the admin page (src/app/admin/page.tsx): the level
    form and the id derived from a new level's name, the draft writes, the
    upload request for an asset, the updates of the asset document, and the
    publish step that copies the drafts over the published levels. The
    database and the upload service are not modelled; their documented
    effects on a document are. */
module Admin {
  import opened Common
  import opened GameConfig

  // ---------------------------------------------------------------------
  // Level drafts

  /** A level's editable fields: the level without its id. */
  datatype LevelData = LevelData(name: string, gravity: real, lift: real, gap: real, speed: real, spawnRate: int)

  function DataOf(l: Level): LevelData {
    LevelData(l.name, l.gravity, l.lift, l.gap, l.speed, l.spawnRate)
  }

  /** `{ id: d.id, ...d.data() }`: a stored draft read back as a level. */
  function WithId(id: string, d: LevelData): (l: Level)
    ensures l.id == id && DataOf(l) == d
  {
    Level(id, d.name, d.gravity, d.lift, d.gap, d.speed, d.spawnRate)
  }

  /** The form of a new draft: empty name, numbers of the "normal" preset. */
  const NewDraftForm: LevelData := LevelData("", 0.4, -7.0, 220.0, 3.5, 80)

  lemma NewDraftFormIsNormalPreset()
    ensures DefaultLevels[1].id == "normal"
    ensures NewDraftForm == DataOf(DefaultLevels[1]).(name := "")
  {
  }

  /** The effect on `editingLevel`: the form shows the edited level's
      fields, or the new-draft defaults. */
  function FormFor(editing: Option<Level>): (f: LevelData)
    ensures editing.Some? ==> WithId(editing.value.id, f) == editing.value
    ensures editing.None? ==> f == NewDraftForm
  {
    match editing
    case Some(l) => DataOf(l)
    case None => NewDraftForm
  }

  /** JavaScript's `\s`: the whitespace and line-terminator code points. */
  predicate IsJsWhitespace(c: char) {
    var n := c as int;
    || n == 0x20 || 0x09 <= n <= 0x0D || n == 0xA0 || n == 0x1680
    || 0x2000 <= n <= 0x200A || n == 0x2028 || n == 0x2029 || n == 0x202F
    || n == 0x205F || n == 0x3000 || n == 0xFEFF
  }

  predicate IsUpperAscii(c: char) {
    'A' <= c <= 'Z'
  }

  function LowerAscii(c: char): (r: char)
    ensures !IsUpperAscii(r)
    ensures IsUpperAscii(c) ==> r as int == c as int + 32 && 'a' <= r <= 'z'
    ensures !IsUpperAscii(c) ==> r == c
  {
    if IsUpperAscii(c) then (c as int + 32) as char else c
  }

  function SlugChar(c: char): char {
    var l := LowerAscii(c);
    if IsJsWhitespace(l) then '-' else l
  }

  /** `name.toLowerCase().replace(/\s/g, '-')`. */
  function Slug(name: string): (id: string)
    ensures |id| == |name|
    ensures forall i :: 0 <= i < |id| ==> !IsJsWhitespace(id[i]) && !IsUpperAscii(id[i])
    ensures forall i :: 0 <= i < |name| && IsJsWhitespace(name[i]) ==> id[i] == '-'
    ensures forall i :: 0 <= i < |name| && IsUpperAscii(name[i]) ==> id[i] == (name[i] as int + 32) as char
    ensures forall i :: 0 <= i < |name| && !IsJsWhitespace(name[i]) && !IsUpperAscii(name[i]) ==> id[i] == name[i]
  {
    seq(|name|, i requires 0 <= i < |name| => SlugChar(name[i]))
  }

  /** An id is its own slug, so slugging twice is slugging once. */
  lemma SlugIdempotent(name: string)
    ensures Slug(Slug(name)) == Slug(name)
  {
    var once := Slug(name);
    forall i | 0 <= i < |once|
      ensures SlugChar(once[i]) == once[i]
    {
    }
  }

  /** Only the empty name gives the empty id: a name of blanks yields dashes
      and passes the emptiness check. */
  lemma SlugEmptyIffNameEmpty(name: string)
    ensures Slug(name) == [] <==> name == []
  {
  }

  /** `EmptyName` is the page's own check; `InvalidPath` is the error the
      database client throws for a draft path that names no document. */
  datatype SubmitError = EmptyName | InvalidPath

  predicate IsSlash(c: char) {
    c == '/'
  }

  /** The number of `/` in an id. */
  function Slashes(id: string): (n: nat)
    ensures n == 0 <==> '/' !in id
    ensures n <= |id|
  {
    var r := Filter(id, IsSlash);
    assert |r| > 0 ==> IsSlash(r[0]) && r[0] in id;
    assert '/' in id ==> exists i :: 0 <= i < |id| && IsSlash(id[i]);
    |r|
  }

  /** The number of bytes a character takes in UTF-8. */
  function Utf8Width(c: char): (n: nat)
    ensures 1 <= n <= 4
    ensures n == 1 <==> c as int < 0x80
  {
    if c as int < 0x80 then 1
    else if c as int < 0x800 then 2
    else if c as int < 0x1_0000 then 3
    else 4
  }

  /** The length of a string in UTF-8 bytes. */
  function Utf8Length(s: string): (n: nat)
    ensures |s| <= n <= 4 * |s|
    ensures (forall i :: 0 <= i < |s| ==> s[i] as int < 0x80) ==> n == |s|
  {
    if |s| == 0 then 0 else Utf8Width(s[0]) + Utf8Length(s[1..])
  }

  const MaxIdBytes: nat := 1500

  /** A document id the database refuses: `.` and `..`, an id of the form
      `__x__`, and one longer than 1500 bytes. */
  predicate ReservedId(id: string) {
    || id == "." || id == ".."
    || (|id| >= 4 && id[..2] == "__" && id[|id| - 2..] == "__")
    || Utf8Length(id) > MaxIdBytes
  }

  /** `handleSubmit`. Editing writes the form over the edited draft (an
      update of a draft that no longer exists fails and writes nothing). A
      new draft is stored under the slug of its name, and an empty slug is
      rejected before any write. The slug becomes the path
      `game_levels/<slug>`, where every `/` of the slug separates one more
      segment. A document path has an even number of segments, so a slug
      with an odd number of `/` makes the client throw, and nothing is
      written. A slug with an even, non-zero number of `/` names a
      document in a sub-collection, so no draft is written either. */
  function Submit(drafts: map<string, LevelData>, editing: Option<string>, form: LevelData)
    : (r: Result<map<string, LevelData>, SubmitError>)
    ensures r == Failure(EmptyName) <==> editing.None? && form.name == []
    ensures r == Failure(InvalidPath) <==> editing.None? && Slashes(Slug(form.name)) % 2 == 1
    ensures editing.Some? && editing.value in drafts ==> r == Success(drafts[editing.value := form])
    ensures editing.Some? && editing.value !in drafts ==> r == Success(drafts)
    ensures editing.None? && r.Success? && ('/' in Slug(form.name) || ReservedId(Slug(form.name))) ==>
      r.value == drafts
    ensures editing.None? && r.Success? && '/' !in Slug(form.name) && !ReservedId(Slug(form.name)) ==>
      && r.value.Keys == drafts.Keys + {Slug(form.name)}
      && r.value[Slug(form.name)] == form
      && (forall id :: id in drafts && id != Slug(form.name) ==> r.value[id] == drafts[id])
  {
    match editing
    case Some(id) =>
      if id in drafts then Success(drafts[id := form]) else Success(drafts)
    case None =>
      var id := Slug(form.name);
      SlugEmptyIffNameEmpty(form.name);
      if id == [] then Failure(EmptyName)
      else if Slashes(id) % 2 == 1 then Failure(InvalidPath)
      else if Slashes(id) > 0 || ReservedId(id) then Success(drafts)
      else Success(drafts[id := form])
  }

  /** A name whose id the database reserves is reported as added, but no
      draft appears. */
  lemma ReservedNameWritesNothing(drafts: map<string, LevelData>, form: LevelData)
    requires form.name == "__Boss__"
    ensures Slug(form.name) == "__boss__"
    ensures Submit(drafts, None, form) == Success(drafts)
  {
    assert Slug(form.name) == "__boss__";
  }

  /** `handleDeleteLevel`. */
  function DeleteDraft(drafts: map<string, LevelData>, id: string): (r: map<string, LevelData>)
    ensures id !in r
    ensures forall other :: other != id ==> (other in r <==> other in drafts)
    ensures forall other :: other in r ==> r[other] == drafts[other]
  {
    drafts - {id}
  }

  // ---------------------------------------------------------------------
  // Uploads

  /** The fields of the asset document. */
  datatype AssetKey =
    | Background | PlayerSprite | Pipes | BgMusic | CoinSprite | ShieldSprite
    | SlowMoSprite | DoubleScoreSprite | JumpSound | CollisionSound

  function KeyName(k: AssetKey): string {
    match k
    case Background => "bg"
    case PlayerSprite => "player"
    case Pipes => "pipes"
    case BgMusic => "bgMusic"
    case CoinSprite => "coin"
    case ShieldSprite => "shield"
    case SlowMoSprite => "slowMo"
    case DoubleScoreSprite => "doubleScore"
    case JumpSound => "jumpSound"
    case CollisionSound => "collisionSound"
  }

  /** The asset ids uploaded as audio. */
  const AudioKeyNames: seq<string> := ["bgMusic", "jumpSound", "collisionSound"]

  datatype ResourceType = Image | Video

  /** `['bgMusic', 'jumpSound', 'collisionSound'].includes(assetId) ? 'video' : 'image'`:
      exactly the three sound assets go up as video; every picture, the pipe
      skins included, goes up as an image. */
  function ResourceTypeOf(k: AssetKey): (t: ResourceType)
    ensures t == Video <==> k == BgMusic || k == JumpSound || k == CollisionSound
  {
    if KeyName(k) in AudioKeyNames then Video else Image
  }

  function ResourceName(t: ResourceType): string {
    match t
    case Image => "image"
    case Video => "video"
  }

  /** The server-side transformation requested for each resource type:
      the audio bitrate for video, the 1920-pixel resize for images. */
  function Transformation(t: ResourceType): (tr: string)
    ensures tr == "br_128k" <==> t == Video
    ensures tr == "w_1920,q_auto:good" <==> t == Image
  {
    match t
    case Image => "w_1920,q_auto:good"
    case Video => "br_128k"
  }

  const UploadHost: string := "https://api.cloudinary.com/v1_1/"

  /** The upload request: endpoint and form fields in the order the page
      appends them. The `file` field carries the file's name in place of its
      contents. */
  datatype UploadRequest = UploadRequest(url: string, fields: seq<(string, string)>)

  datatype UploadError = CloudNameMissing

  /** The request `handleFileChange` sends for an asset, given the two
      configuration values (absent when the environment lacks them). An
      absent or empty cloud name stops the upload; the API key field is
      sent only when the key is non-empty. */
  function PrepareUpload(k: AssetKey, file: string, cloudName: Option<string>, apiKey: Option<string>)
    : (r: Result<UploadRequest, UploadError>)
    ensures r.Failure? <==> cloudName.None? || cloudName.value == ""
    ensures r.Success? ==>
      && r.value.url == UploadHost + cloudName.value + "/" + ResourceName(ResourceTypeOf(k)) + "/upload"
      && |r.value.fields| == (if apiKey.Some? && apiKey.value != "" then 4 else 3)
      && r.value.fields[0] == ("file", file)
      && r.value.fields[1] == ("upload_preset", "ml_default")
      && r.value.fields[|r.value.fields| - 1] == ("transformation", Transformation(ResourceTypeOf(k)))
      && (|r.value.fields| == 4 <==> apiKey.Some? && apiKey.value != "")
      && (|r.value.fields| == 4 ==> r.value.fields[2] == ("api_key", apiKey.value))
  {
    match cloudName
    case None => Failure(CloudNameMissing)
    case Some(cloud) =>
      if cloud == "" then Failure(CloudNameMissing)
      else
        var t := ResourceTypeOf(k);
        var keyField := if apiKey.Some? && apiKey.value != "" then [("api_key", apiKey.value)] else [];
        Success(UploadRequest(
          UploadHost + cloud + "/" + ResourceName(t) + "/upload",
          [("file", file), ("upload_preset", "ml_default")] + keyField + [("transformation", Transformation(t))]))
  }

  // ---------------------------------------------------------------------
  // The asset document

  datatype Asset = Asset(name: string, url: string)

  /** The `settings/game_assets` document: one optional asset per single
      field, and the optional list of pipe skins. */
  datatype AssetDoc = AssetDoc(singles: map<AssetKey, Asset>, pipes: Option<seq<Asset>>)

  function PipesOf(d: AssetDoc): seq<Asset> {
    if d.pipes.Some? then d.pipes.value else []
  }

  predicate NoDuplicates(xs: seq<Asset>) {
    forall i, j :: 0 <= i < j < |xs| ==> xs[i] != xs[j]
  }

  /** Firestore's `arrayUnion` with one element: appended unless already
      present. */
  function ArrayUnion(xs: seq<Asset>, a: Asset): (r: seq<Asset>)
    ensures a in xs ==> r == xs
    ensures a !in xs ==> r == xs + [a]
    ensures a in r
    ensures forall b :: b in r <==> b in xs || b == a
    ensures |xs| <= |r| <= |xs| + 1 && r[..|xs|] == xs
    ensures NoDuplicates(xs) ==> NoDuplicates(r)
  {
    if a in xs then xs else xs + [a]
  }

  /** Firestore's `arrayRemove` with one element: every equal entry goes. */
  function ArrayRemove(xs: seq<Asset>, a: Asset): (r: seq<Asset>)
    ensures a !in r
    ensures forall b :: b != a ==> (b in r <==> b in xs)
    ensures forall b :: b != a ==> multiset(r)[b] == multiset(xs)[b]
    ensures |r| == |xs| - multiset(xs)[a]
    decreases |xs|
  {
    if |xs| == 0 then []
    else
      assert xs == [xs[0]] + xs[1..];
      (if xs[0] == a then [] else [xs[0]]) + ArrayRemove(xs[1..], a)
  }

  lemma {:induction false} ArrayRemoveKeepsOrder(xs: seq<Asset>, a: Asset)
    ensures IsSubseq(ArrayRemove(xs, a), xs)
    decreases |xs|
  {
    if |xs| > 0 {
      ArrayRemoveKeepsOrder(xs[1..], a);
      var rest := ArrayRemove(xs[1..], a);
      if xs[0] == a {
        assert ArrayRemove(xs, a) == rest;
        SubseqOfTail(rest, xs);
      } else {
        assert ([xs[0]] + rest)[1..] == rest;
      }
    }
  }

  lemma {:induction false} ArrayRemoveAbsent(xs: seq<Asset>, a: Asset)
    requires a !in xs
    ensures ArrayRemove(xs, a) == xs
    decreases |xs|
  {
    if |xs| > 0 {
      ArrayRemoveAbsent(xs[1..], a);
      assert xs == [xs[0]] + xs[1..];
    }
  }

  lemma {:induction false} ArrayRemoveLast(xs: seq<Asset>, a: Asset)
    requires a !in xs
    ensures ArrayRemove(xs + [a], a) == xs
    decreases |xs|
  {
    if |xs| == 0 {
      assert xs + [a] == [a];
      assert [a][1..] == [];
    } else {
      var ys := xs + [a];
      assert ys[0] == xs[0] && xs[0] != a;
      assert ys[1..] == xs[1..] + [a];
      assert a !in xs[1..];
      ArrayRemoveLast(xs[1..], a);
      assert ArrayRemove(ys, a) == [xs[0]] + ArrayRemove(ys[1..], a);
      assert xs == [xs[0]] + xs[1..];
    }
  }

  /** The document write after a successful upload. On an existing document
      a pipe skin joins the list and any other asset replaces its field; a
      missing document is created holding only the new asset. */
  function Upload(doc: Option<AssetDoc>, k: AssetKey, a: Asset): (r: AssetDoc)
    ensures k == Pipes ==> a in PipesOf(r) && r.pipes.Some?
    ensures k == Pipes && doc.Some? ==>
      && r.singles == doc.value.singles
      && PipesOf(r) == ArrayUnion(PipesOf(doc.value), a)
      && |PipesOf(doc.value)| <= |PipesOf(r)|
      && PipesOf(r)[..|PipesOf(doc.value)|] == PipesOf(doc.value)
      && (forall b :: b in PipesOf(r) <==> b in PipesOf(doc.value) || b == a)
    ensures k == Pipes && doc.None? ==> r == AssetDoc(map[], Some([a]))
    ensures k != Pipes ==> k in r.singles && r.singles[k] == a
    ensures k != Pipes && doc.Some? ==>
      && r.pipes == doc.value.pipes
      && r.singles.Keys == doc.value.singles.Keys + {k}
      && (forall j :: j in doc.value.singles && j != k ==> r.singles[j] == doc.value.singles[j])
    ensures k != Pipes && doc.None? ==> r == AssetDoc(map[k := a], None)
  {
    match doc
    case None =>
      if k == Pipes then AssetDoc(map[], Some([a])) else AssetDoc(map[k := a], None)
    case Some(d) =>
      if k == Pipes then d.(pipes := Some(ArrayUnion(PipesOf(d), a)))
      else d.(singles := d.singles[k := a])
  }

  /** `handleDeletePipeImage`: the skin leaves the list, everything else
      stays. An update of a missing document fails and writes nothing. */
  function DeletePipe(doc: Option<AssetDoc>, a: Asset): (r: Option<AssetDoc>)
    ensures doc.None? ==> r.None?
    ensures doc.Some? ==>
      && r.Some?
      && r.value.singles == doc.value.singles
      && a !in PipesOf(r.value)
      && (forall b :: b != a ==> (b in PipesOf(r.value) <==> b in PipesOf(doc.value)))
      && (forall b :: b != a ==> multiset(PipesOf(r.value))[b] == multiset(PipesOf(doc.value))[b])
      && IsSubseq(PipesOf(r.value), PipesOf(doc.value))
  {
    match doc
    case None => None
    case Some(d) =>
      ArrayRemoveKeepsOrder(PipesOf(d), a);
      Some(d.(pipes := Some(ArrayRemove(PipesOf(d), a))))
  }

  /** Deleting a freshly uploaded pipe skin restores the list it joined. */
  lemma UploadThenDeletePipe(d: AssetDoc, a: Asset)
    requires a !in PipesOf(d)
    ensures DeletePipe(Some(Upload(Some(d), Pipes, a)), a) == Some(d.(pipes := Some(PipesOf(d))))
  {
    ArrayRemoveLast(PipesOf(d), a);
  }

  // ---------------------------------------------------------------------
  // Publishing

  /** A draft document as the snapshot lists it. */
  datatype DraftDoc = DraftDoc(id: string, data: LevelData)

  /** One write of a batch. */
  datatype BatchOp = Delete(id: string) | Put(id: string, level: Level)

  /** The ids a batch writes to. */
  function PutIds(ops: seq<BatchOp>): set<string> {
    set i | 0 <= i < |ops| && ops[i].Put? :: ops[i].id
  }

  /** Committing a batch applies its writes in order. */
  function ApplyBatch(m: map<string, Level>, ops: seq<BatchOp>): map<string, Level>
    decreases |ops|
  {
    if |ops| == 0 then m
    else
      var m' := match ops[0]
        case Delete(id) => m - {id}
        case Put(id, l) => m[id := l];
      ApplyBatch(m', ops[1..])
  }

  /** A batch can only add ids it writes to, and an id the batch does not
      touch keeps its level. */
  lemma {:induction false} ApplyBatchFrame(m: map<string, Level>, ops: seq<BatchOp>)
    ensures ApplyBatch(m, ops).Keys <= m.Keys + PutIds(ops)
    ensures forall id :: id in m && (forall i :: 0 <= i < |ops| ==> ops[i].id != id) ==>
      id in ApplyBatch(m, ops) && ApplyBatch(m, ops)[id] == m[id]
    decreases |ops|
  {
    if |ops| > 0 {
      var m' := match ops[0]
        case Delete(id) => m - {id}
        case Put(id, l) => m[id := l];
      ApplyBatchFrame(m', ops[1..]);
      assert PutIds(ops[1..]) <= PutIds(ops) by {
        forall x | x in PutIds(ops[1..])
          ensures x in PutIds(ops)
        {
          var i :| 0 <= i < |ops[1..]| && ops[1..][i].Put? && ops[1..][i].id == x;
          assert ops[i + 1] == ops[1..][i];
        }
      }
      if ops[0].Put? {
        assert ops[0].id in PutIds(ops);
      }
      forall id | id in m && (forall i :: 0 <= i < |ops| ==> ops[i].id != id)
        ensures forall i :: 0 <= i < |ops[1..]| ==> ops[1..][i].id != id
      {
        forall i | 0 <= i < |ops[1..]|
          ensures ops[1..][i].id != id
        {
          assert ops[1..][i] == ops[i + 1];
        }
      }
    }
  }

  function DeleteOps(ids: seq<string>): (ops: seq<BatchOp>)
    ensures |ops| == |ids|
    ensures forall i :: 0 <= i < |ids| ==> ops[i] == Delete(ids[i])
  {
    seq(|ids|, i requires 0 <= i < |ids| => Delete(ids[i]))
  }

  function PutOps(drafts: seq<DraftDoc>): (ops: seq<BatchOp>)
    ensures |ops| == |drafts|
    ensures forall i :: 0 <= i < |drafts| ==> ops[i] == Put(drafts[i].id, WithId(drafts[i].id, drafts[i].data))
  {
    seq(|drafts|, i requires 0 <= i < |drafts| => Put(drafts[i].id, WithId(drafts[i].id, drafts[i].data)))
  }

  function DraftIds(drafts: seq<DraftDoc>): set<string> {
    set i | 0 <= i < |drafts| :: drafts[i].id
  }

  /** Document ids are unique within a collection. */
  predicate UniqueIds(drafts: seq<DraftDoc>) {
    forall i, j :: 0 <= i < j < |drafts| ==> drafts[i].id != drafts[j].id
  }

  /** `handlePublish`: one batch deletes every published level listed by the
      snapshot `publishedIds` and then writes every draft under its id. When
      the batch fails nothing changes. Afterwards the published levels are
      exactly the drafts: the same ids, the same fields, nothing stale. */
  function Publish(published: map<string, Level>, publishedIds: seq<string>, drafts: seq<DraftDoc>, committed: bool)
    : (r: map<string, Level>)
    requires forall id :: id in published <==> id in publishedIds
    requires UniqueIds(drafts)
    ensures !committed ==> r == published
    ensures committed ==> r.Keys == DraftIds(drafts)
    ensures committed ==> forall i :: 0 <= i < |drafts| ==> r[drafts[i].id] == WithId(drafts[i].id, drafts[i].data)
  {
    if !committed then published
    else
      var ops := DeleteOps(publishedIds) + PutOps(drafts);
      ApplyBatchConcat(published, DeleteOps(publishedIds), PutOps(drafts));
      DeletesClear(published, publishedIds);
      PutsWrite(map[], drafts);
      ApplyBatch(published, ops)
  }

  lemma {:induction false} ApplyBatchConcat(m: map<string, Level>, a: seq<BatchOp>, b: seq<BatchOp>)
    ensures ApplyBatch(m, a + b) == ApplyBatch(ApplyBatch(m, a), b)
    decreases |a|
  {
    if |a| > 0 {
      assert (a + b)[0] == a[0];
      assert (a + b)[1..] == a[1..] + b;
      var m' := match a[0]
        case Delete(id) => m - {id}
        case Put(id, l) => m[id := l];
      ApplyBatchConcat(m', a[1..], b);
    } else {
      assert a + b == b;
    }
  }

  function SetOf(ids: seq<string>): set<string> {
    set x | x in ids
  }

  /** Deleting every listed id removes exactly those ids. */
  lemma {:induction false} DeletesRemove(m: map<string, Level>, ids: seq<string>)
    ensures ApplyBatch(m, DeleteOps(ids)) == m - SetOf(ids)
    decreases |ids|
  {
    if |ids| > 0 {
      assert DeleteOps(ids)[1..] == DeleteOps(ids[1..]);
      DeletesRemove(m - {ids[0]}, ids[1..]);
      assert SetOf(ids) == {ids[0]} + SetOf(ids[1..]) by {
        assert ids == [ids[0]] + ids[1..];
      }
    }
  }

  lemma DeletesClear(m: map<string, Level>, ids: seq<string>)
    requires forall id :: id in m <==> id in ids
    ensures ApplyBatch(m, DeleteOps(ids)) == map[]
  {
    DeletesRemove(m, ids);
  }

  /** The ids of a non-empty draft list: the first id and the rest's, the
      first not among the rest's when the ids are unique. */
  lemma DraftIdsCons(drafts: seq<DraftDoc>)
    requires |drafts| > 0
    ensures DraftIds(drafts) == {drafts[0].id} + DraftIds(drafts[1..])
    ensures UniqueIds(drafts) ==> UniqueIds(drafts[1..]) && drafts[0].id !in DraftIds(drafts[1..])
  {
    var d := drafts[0];
    var rest := drafts[1..];
    forall x | x in DraftIds(drafts)
      ensures x in {d.id} + DraftIds(rest)
    {
      var i :| 0 <= i < |drafts| && drafts[i].id == x;
      if i > 0 {
        assert rest[i - 1].id == x;
      }
    }
    forall x | x in DraftIds(rest)
      ensures x in DraftIds(drafts)
    {
      var i :| 0 <= i < |rest| && rest[i].id == x;
      assert drafts[i + 1].id == x;
    }
    if UniqueIds(drafts) {
      forall i | 0 <= i < |rest|
        ensures rest[i].id != d.id
      {
        assert drafts[i + 1] == rest[i];
      }
    }
  }

  /** Writing distinct drafts puts each under its id and keeps the rest. */
  lemma {:induction false} PutsWrite(m: map<string, Level>, drafts: seq<DraftDoc>)
    requires UniqueIds(drafts)
    ensures var r := ApplyBatch(m, PutOps(drafts));
      && r.Keys == m.Keys + DraftIds(drafts)
      && (forall i :: 0 <= i < |drafts| ==> r[drafts[i].id] == WithId(drafts[i].id, drafts[i].data))
      && (forall id :: id in m && id !in DraftIds(drafts) ==> r[id] == m[id])
    decreases |drafts|
  {
    if |drafts| > 0 {
      var d := drafts[0];
      var rest := drafts[1..];
      var m' := m[d.id := WithId(d.id, d.data)];
      assert PutOps(drafts)[0] == Put(d.id, WithId(d.id, d.data));
      assert PutOps(drafts)[1..] == PutOps(rest);
      assert ApplyBatch(m, PutOps(drafts)) == ApplyBatch(m', PutOps(rest));
      PutsWrite(m', rest);
      DraftIdsCons(drafts);
      assert d.id !in DraftIds(rest);
      forall i | 0 <= i < |drafts|
        ensures ApplyBatch(m, PutOps(drafts))[drafts[i].id] == WithId(drafts[i].id, drafts[i].data)
      {
        if i > 0 {
          assert drafts[i] == rest[i - 1];
        }
      }
    } else {
      assert DraftIds(drafts) == {};
    }
  }
}

=== FILE: common.dfy ===
/** Small shared vocabulary: optional values, results, order-preserving
    filters and the subsequence relation used to talk about "keeps order". */
module Common {

  datatype Option<+T> = None | Some(value: T)

  datatype Result<+R, +E> = Success(value: R) | Failure(error: E)

  function Min(a: real, b: real): (r: real)
    ensures r <= a && r <= b
    ensures r == a || r == b
  {
    if a <= b then a else b
  }

  function Max(a: real, b: real): (r: real)
    ensures r >= a && r >= b
    ensures r == a || r == b
  {
    if a >= b then a else b
  }

  /** The elements of `s` that satisfy `keep`, in their original order
      (JavaScript's `Array.prototype.filter`). */
  function Filter<T>(s: seq<T>, keep: T -> bool): (r: seq<T>)
    ensures |r| <= |s|
    ensures forall i :: 0 <= i < |r| ==> r[i] in s && keep(r[i])
    ensures forall i :: 0 <= i < |s| && keep(s[i]) ==> s[i] in r
  {
    if |s| == 0 then []
    else (if keep(s[0]) then [s[0]] else []) + Filter(s[1..], keep)
  }

  /** No element occurs twice. */
  predicate Distinct<T(==)>(s: seq<T>) {
    forall i, j :: 0 <= i < j < |s| ==> s[i] != s[j]
  }

  /** Filtering a list without repeats gives a list without repeats. */
  lemma {:induction false} FilterDistinct<T>(s: seq<T>, keep: T -> bool)
    requires Distinct(s)
    ensures Distinct(Filter(s, keep))
  {
    if |s| > 0 {
      var tail := Filter(s[1..], keep);
      assert Distinct(s[1..]) by {
        forall i, j | 0 <= i < j < |s[1..]| ensures s[1..][i] != s[1..][j] {
          assert s[1..][i] == s[i + 1] && s[1..][j] == s[j + 1];
        }
      }
      FilterDistinct(s[1..], keep);
      forall k | 0 <= k < |tail| ensures tail[k] != s[0] {
        var m :| 0 <= m < |s[1..]| && s[1..][m] == tail[k];
        assert s[m + 1] == tail[k];
      }
      var r := Filter(s, keep);
      assert r == (if keep(s[0]) then [s[0]] else []) + tail;
      if keep(s[0]) {
        forall i, j | 0 <= i < j < |r| ensures r[i] != r[j] {
          assert r[j] == tail[j - 1];
          if i > 0 { assert r[i] == tail[i - 1]; }
        }
      }
    }
  }

  /** `a` can be obtained from `b` by deleting elements: the elements of `a`
      appear in `b` in the same relative order. */
  predicate IsSubseq<T(==)>(a: seq<T>, b: seq<T>)
    decreases |b|
  {
    if |a| == 0 then true
    else if |b| == 0 then false
    else (a[0] == b[0] && IsSubseq(a[1..], b[1..])) || IsSubseq(a, b[1..])
  }

  lemma {:induction false} FilterIsSubseq<T>(s: seq<T>, keep: T -> bool)
    ensures IsSubseq(Filter(s, keep), s)
    decreases |s|
  {
    if |s| > 0 {
      FilterIsSubseq(s[1..], keep);
      var rest := Filter(s[1..], keep);
      if keep(s[0]) {
        assert Filter(s, keep) == [s[0]] + rest;
        assert ([s[0]] + rest)[1..] == rest;
      } else {
        assert Filter(s, keep) == rest;
        SubseqOfTail(rest, s);
      }
    }
  }

  /** Dropping the head of the longer sequence keeps a subsequence. */
  lemma {:induction false} SubseqOfTail<T>(a: seq<T>, b: seq<T>)
    requires |b| > 0 && IsSubseq(a, b[1..])
    ensures IsSubseq(a, b)
  {
  }

  lemma {:induction false} FilterConcat<T>(a: seq<T>, b: seq<T>, keep: T -> bool)
    ensures Filter(a + b, keep) == Filter(a, keep) + Filter(b, keep)
    decreases |a|
  {
    if |a| == 0 {
      assert a + b == b;
    } else {
      assert (a + b)[1..] == a[1..] + b;
      FilterConcat(a[1..], b, keep);
    }
  }

  /** Filtering twice by the same test is filtering once. */
  lemma {:induction false} FilterIdempotent<T>(s: seq<T>, keep: T -> bool)
    ensures Filter(Filter(s, keep), keep) == Filter(s, keep)
    decreases |s|
  {
    if |s| > 0 {
      FilterIdempotent(s[1..], keep);
      var head := if keep(s[0]) then [s[0]] else [];
      FilterConcat(head, Filter(s[1..], keep), keep);
      if keep(s[0]) {
        assert Filter(head, keep) == [s[0]] by {
          assert head[1..] == [];
        }
      }
    }
  }

  /** Splitting `s` by a test and its negation loses nothing: the parts that
      satisfy `p` add up to the whole. */
  lemma {:induction false} FilterPartitionCount<T>(s: seq<T>, k: T -> bool, notK: T -> bool, p: T -> bool)
    requires forall x :: notK(x) == !k(x)
    ensures |Filter(Filter(s, k), p)| + |Filter(Filter(s, notK), p)| == |Filter(s, p)|
    decreases |s|
  {
    if |s| > 0 {
      FilterPartitionCount(s[1..], k, notK, p);
      var hk := if k(s[0]) then [s[0]] else [];
      var hn := if notK(s[0]) then [s[0]] else [];
      FilterConcat(hk, Filter(s[1..], k), p);
      FilterConcat(hn, Filter(s[1..], notK), p);
      if k(s[0]) {
        assert Filter(hk, p) == Filter([s[0]], p);
        assert hn == [];
      } else {
        assert Filter(hn, p) == Filter([s[0]], p);
        assert hk == [];
      }
      assert [s[0]][1..] == [];
    }
  }

  /** Nothing passes a test that no element satisfies. */
  lemma {:induction false} FilterNone<T>(s: seq<T>, keep: T -> bool)
    requires forall i :: 0 <= i < |s| ==> !keep(s[i])
    ensures Filter(s, keep) == []
    decreases |s|
  {
    if |s| > 0 {
      FilterNone(s[1..], keep);
    }
  }
}

=== FILE: game_config.dfy ===
/** The level record and the four built-in difficulty presets
    (src/lib/game-config.ts), plus the two small enumerations that file
    declares for pipes and collectibles. */
module GameConfig {
  import opened Common

  /** One difficulty preset: per-frame gravity, the (negative) jump
      velocity, the vertical gap between pipe segments, the pipes' leftward
      speed per frame and the number of frames between spawns. */
  datatype Level = Level(
    id: string,
    name: string,
    gravity: real,
    lift: real,
    gap: real,
    speed: real,
    spawnRate: int)

  const DefaultLevels: seq<Level> := [
    Level("easy", "Easy", 0.3, -6.0, 240.0, 2.5, 90),
    Level("normal", "Normal", 0.4, -7.0, 220.0, 3.5, 80),
    Level("hard", "Hard", 0.5, -8.0, 200.0, 4.5, 70),
    Level("insane", "Insane", 0.6, -9.0, 180.0, 6.0, 50)
  ]

  /** A level the game loop can run sensibly: the player falls, a jump goes
      up, there is a gap, pipes move left and pipes are spawned. */
  predicate Playable(l: Level) {
    l.gravity > 0.0 && l.lift < 0.0 && l.gap > 0.0 && l.speed > 0.0 && l.spawnRate > 0
  }

  /** `b` is strictly harder than `a` in every parameter. */
  predicate Harder(a: Level, b: Level) {
    && a.gravity < b.gravity
    && a.lift > b.lift
    && a.gap > b.gap
    && a.speed < b.speed
    && a.spawnRate > b.spawnRate
  }

  predicate DistinctIds(ls: seq<Level>) {
    forall i, j :: 0 <= i < j < |ls| ==> ls[i].id != ls[j].id
  }

  lemma DefaultLevelsShape()
    ensures |DefaultLevels| == 4
    ensures DefaultLevels[0].id == "easy" && DefaultLevels[1].id == "normal"
    ensures DefaultLevels[2].id == "hard" && DefaultLevels[3].id == "insane"
    ensures DistinctIds(DefaultLevels)
  {
  }

  lemma DefaultLevelsPlayable()
    ensures forall i :: 0 <= i < |DefaultLevels| ==> Playable(DefaultLevels[i])
  {
  }

  /** Difficulty rises strictly along the preset list. */
  lemma DefaultLevelsMonotone()
    ensures forall i, j :: 0 <= i < j < |DefaultLevels| ==> Harder(DefaultLevels[i], DefaultLevels[j])
  {
  }

  /** An oscillating pipe's direction: the source types it as `1 | -1`. */
  datatype Direction = Plus | Minus

  function DirectionValue(d: Direction): (v: int)
    ensures v == 1 || v == -1
  {
    match d
    case Plus => 1
    case Minus => -1
  }

  function DirectionOf(v: int): (r: Option<Direction>)
    ensures r.Some? <==> v == 1 || v == -1
    ensures r.Some? ==> DirectionValue(r.value) == v
  {
    if v == 1 then Some(Plus) else if v == -1 then Some(Minus) else None
  }

  lemma DirectionRoundTrip(d: Direction)
    ensures DirectionOf(DirectionValue(d)) == Some(d)
  {
  }

  /** The four collectible kinds of the `Collectible.type` union. */
  datatype CollectibleKind = Coin | Shield | SlowMo | DoubleScore

  function KindName(k: CollectibleKind): string {
    match k
    case Coin => "coin"
    case Shield => "shield"
    case SlowMo => "slowMo"
    case DoubleScore => "doubleScore"
  }

  function KindOf(s: string): (r: Option<CollectibleKind>)
    ensures r.Some? ==> KindName(r.value) == s
    ensures r.None? ==> s !in {"coin", "shield", "slowMo", "doubleScore"}
  {
    if s == "coin" then Some(Coin)
    else if s == "shield" then Some(Shield)
    else if s == "slowMo" then Some(SlowMo)
    else if s == "doubleScore" then Some(DoubleScore)
    else None
  }

  lemma KindRoundTrip(k: CollectibleKind)
    ensures KindOf(KindName(k)) == Some(k)
  {
  }
}

=== FILE: level_merge.dfy ===
/** The effect that combines the built-in presets with the levels stored
    remotely (src/app/page.tsx, lines 121-143), and the choice of the current
    level after the merge. */
module LevelMerge {
  import opened Common
  import opened GameConfig

  function Ids(ls: seq<Level>): set<string> {
    set l | l in ls :: l.id
  }

  /** `findIndex(l => l.id === id)`: the first position holding `id`, or -1. */
  function FindIndex(ls: seq<Level>, id: string): (i: int)
    ensures -1 <= i < |ls|
    ensures 0 <= i ==> ls[i].id == id && forall j :: 0 <= j < i ==> ls[j].id != id
    ensures i == -1 ==> forall j :: 0 <= j < |ls| ==> ls[j].id != id
  {
    if |ls| == 0 then -1
    else if ls[0].id == id then 0
    else
      var k := FindIndex(ls[1..], id);
      if k == -1 then -1 else k + 1
  }

  /** One iteration of the `forEach` over the remote levels: a level whose id
      is not a default id is appended, one whose id is a default id replaces
      the first entry with that id. */
  function MergeOne(combined: seq<Level>, defaultIds: set<string>, remote: Level): (r: seq<Level>)
    ensures |r| == |combined| + (if remote.id in defaultIds then 0 else 1)
    ensures forall i :: 0 <= i < |combined| ==> r[i].id == combined[i].id
    ensures forall i :: 0 <= i < |combined| && combined[i].id != remote.id ==> r[i] == combined[i]
    ensures remote.id !in defaultIds ==> r[|r| - 1] == remote
    ensures (exists i :: 0 <= i < |combined| && combined[i].id == remote.id) ==> remote in r
  {
    if remote.id !in defaultIds then combined + [remote]
    else
      var i := FindIndex(combined, remote.id);
      if i != -1 then combined[i := remote] else combined
  }

  /** The combined list: start from the defaults and fold the remote levels
      in, first to last. */
  function Merge(defaults: seq<Level>, remote: seq<Level>): (r: seq<Level>)
    ensures |r| == |defaults| + |Appended(Ids(defaults), remote)|
    ensures forall i :: 0 <= i < |defaults| ==> r[i].id == defaults[i].id
    decreases |remote|
  {
    if |remote| == 0 then defaults
    else MergeOne(Merge(defaults, remote[..|remote| - 1]), Ids(defaults), remote[|remote| - 1])
  }

  /** The last remote level carrying `id`, or `dflt` if there is none. */
  function Latest(remote: seq<Level>, id: string, dflt: Level): (l: Level)
    ensures dflt.id == id ==> l.id == id
    decreases |remote|
  {
    if |remote| == 0 then dflt
    else if remote[|remote| - 1].id == id then remote[|remote| - 1]
    else Latest(remote[..|remote| - 1], id, dflt)
  }

  /** The remote levels whose id is not among `defaultIds`, in order. */
  function Appended(defaultIds: set<string>, remote: seq<Level>): (r: seq<Level>)
    ensures |r| <= |remote|
    ensures forall i :: 0 <= i < |r| ==> r[i] in remote && r[i].id !in defaultIds
    decreases |remote|
  {
    if |remote| == 0 then []
    else
      var last := remote[|remote| - 1];
      Appended(defaultIds, remote[..|remote| - 1]) + (if last.id !in defaultIds then [last] else [])
  }

  /** Each default slot, after the remote level with its id (the last such
      one) has replaced it. */
  function Replaced(defaults: seq<Level>, remote: seq<Level>): (r: seq<Level>)
    ensures |r| == |defaults|
    ensures forall i :: 0 <= i < |defaults| ==> r[i] == Latest(remote, defaults[i].id, defaults[i])
  {
    seq(|defaults|, i requires 0 <= i < |defaults| => Latest(remote, defaults[i].id, defaults[i]))
  }

  /** The merge keeps every default slot in place, filled by the last remote
      level with that id if any, and appends the other remote levels in
      their remote order. */
  lemma {:induction false} MergeShape(defaults: seq<Level>, remote: seq<Level>)
    requires DistinctIds(defaults)
    ensures Merge(defaults, remote) == Replaced(defaults, remote) + Appended(Ids(defaults), remote)
    decreases |remote|
  {
    if |remote| > 0 {
      var n := |remote|;
      var prefix := remote[..n - 1];
      var x := remote[n - 1];
      var ids := Ids(defaults);
      MergeShape(defaults, prefix);
      var c := Replaced(defaults, prefix) + Appended(ids, prefix);
      assert Merge(defaults, remote) == MergeOne(c, ids, x);
      if x.id !in ids {
        StepFresh(defaults, remote);
      } else {
        StepReplace(defaults, remote);
      }
    }
  }

  /** A remote level with a non-preset id leaves the preset slots alone and
      is appended. */
  lemma StepFresh(defaults: seq<Level>, remote: seq<Level>)
    requires |remote| > 0 && remote[|remote| - 1].id !in Ids(defaults)
    ensures Replaced(defaults, remote) == Replaced(defaults, remote[..|remote| - 1])
    ensures Appended(Ids(defaults), remote)
      == Appended(Ids(defaults), remote[..|remote| - 1]) + [remote[|remote| - 1]]
  {
    var prefix := remote[..|remote| - 1];
    forall i | 0 <= i < |defaults|
      ensures Latest(remote, defaults[i].id, defaults[i]) == Latest(prefix, defaults[i].id, defaults[i])
    {
      assert defaults[i] in defaults;
    }
  }

  /** A remote level with a preset id overwrites exactly that preset's slot. */
  lemma StepReplace(defaults: seq<Level>, remote: seq<Level>)
    requires DistinctIds(defaults)
    requires |remote| > 0 && remote[|remote| - 1].id in Ids(defaults)
    ensures var prefix := remote[..|remote| - 1];
      var ids := Ids(defaults);
      MergeOne(Replaced(defaults, prefix) + Appended(ids, prefix), ids, remote[|remote| - 1])
        == Replaced(defaults, remote) + Appended(ids, prefix)
  {
    var prefix := remote[..|remote| - 1];
    var x := remote[|remote| - 1];
    var c := Replaced(defaults, prefix) + Appended(Ids(defaults), prefix);
    var j :| 0 <= j < |defaults| && defaults[j].id == x.id;
    forall k | 0 <= k < |defaults|
      ensures c[k].id == defaults[k].id
    {
      assert c[k] == Latest(prefix, defaults[k].id, defaults[k]);
    }
    assert FindIndex(c, x.id) == j;
    forall k | 0 <= k < |defaults|
      ensures c[j := x][k] == Latest(remote, defaults[k].id, defaults[k])
    {
      if k != j {
        assert defaults[k].id != x.id;
      }
    }
    assert c[j := x] == Replaced(defaults, remote) + Appended(Ids(defaults), prefix);
  }

  /** `find(l => l.id === id) || levels[0]`: the level with the current id
      if it is still present, otherwise the first level. */
  function ChooseCurrent(levels: seq<Level>, id: string): (l: Level)
    requires |levels| > 0
    ensures l in levels
    ensures (exists k :: 0 <= k < |levels| && levels[k].id == id) ==> l.id == id
    ensures (exists k :: 0 <= k < |levels| && levels[k].id == id) ==>
      exists k :: 0 <= k < |levels| && levels[k] == l && forall j :: 0 <= j < k ==> levels[j].id != id
    ensures (forall k :: 0 <= k < |levels| ==> levels[k].id != id) ==> l == levels[0]
  {
    var i := FindIndex(levels, id);
    if i != -1 then levels[i] else levels[0]
  }

  /** The merge against the built-in presets keeps the four preset ids in
      the first four slots, in preset order; everything after them is a
      remote level with a non-preset id. */
  lemma MergedDefaultsKeepSlots(remote: seq<Level>)
    ensures var m := Merge(DefaultLevels, remote);
      && |m| == |DefaultLevels| + |Appended(Ids(DefaultLevels), remote)|
      && (forall i :: 0 <= i < |DefaultLevels| ==> m[i].id == DefaultLevels[i].id)
      && m[|DefaultLevels|..] == Appended(Ids(DefaultLevels), remote)
      && (forall i :: |DefaultLevels| <= i < |m| ==> m[i] in remote && m[i].id !in Ids(DefaultLevels))
  {
    DefaultLevelsShape();
    MergeShape(DefaultLevels, remote);
  }
}

=== FILE: round.dfy ===
/** The round controller of the game page (src/app/page.tsx): the
    loading/ready/playing/over phases, `resetGame`, `startGame`, `endGame`,
    `jump`, `handleLevelChange`, the effects that react to loading and to the
    remote level list, and one animation frame of the loop. The canvas size
    (`cw` x `ch`, CSS pixels) and the number of decoded pipe images are
    parameters; the random draws of a frame are too. */
module Round {
  import opened Common
  import opened GameConfig
  import opened Simulation
  import opened LevelMerge

  datatype Phase = Loading | Ready | Playing | Over

  /** Everything the page keeps between events. */
  datatype Session = Session(
    phase: Phase,
    levels: seq<Level>,
    current: Level,
    world: World,
    highScore: int,
    imagesLoaded: bool)

  /** The two random draws one frame may consume, each in [0, 1). */
  datatype Draws = Draws(top: real, skin: real)

  predicate ValidDraws(d: Draws) {
    0.0 <= d.top < 1.0 && 0.0 <= d.skin < 1.0
  }

  /** There is a level to play, and the current level is one of the listed
      levels. Every event keeps this. */
  predicate HasLevel(s: Session) {
    |s.levels| > 0 && s.current in s.levels
  }

  /** In addition, a round only runs once the images are decoded. Only an
      asset reload during play breaks this. */
  predicate Valid(s: Session) {
    HasLevel(s) && (s.phase == Playing ==> s.imagesLoaded)
  }

  const StartX: real := 120.0
  const MaxPlayerWidth: real := 120.0

  /** The page's state before any event: the presets, the first preset
      current, the placeholder player box, and the stored high score. */
  function InitialSession(storedHigh: int): (s: Session)
    ensures s.phase == Loading && !s.imagesLoaded
    ensures s.levels == DefaultLevels && s.current.id == "easy"
    ensures s.world.pipes == [] && s.world.score == 0 && s.world.frame == 0
    ensures s.highScore == storedHigh
    ensures Valid(s)
  {
    Session(Loading, DefaultLevels, DefaultLevels[0],
      World(Player(StartX, 200.0, 60.0, 45.0, 0.0), [], 0, 0), storedHigh, false)
  }

  /** `resetGame`: a fresh round on a `cw` x `ch` canvas. */
  function ResetWorld(cw: real, ch: real): (w: World)
    ensures w.pipes == [] && w.frame == 0 && w.score == 0
    ensures w.player.x == StartX && w.player.vel == 0.0
    ensures w.player.y == ch / 2.0
    ensures w.player.w <= MaxPlayerWidth && w.player.w <= cw * 0.12
    ensures w.player.w == MaxPlayerWidth || w.player.w == cw * 0.12
    ensures w.player.h == 0.75 * w.player.w
    ensures 0.0 < w.player.h <= ch / 2.0 ==> !OutOfBounds(w.player, ch)
  {
    var pw := Min(MaxPlayerWidth, cw * 0.12);
    World(Player(StartX, ch / 2.0, pw, pw * 0.75, 0.0), [], 0, 0)
  }

  /** `startGame`: only once the images are decoded; resets and plays. */
  function StartGame(s: Session, cw: real, ch: real): (r: Session)
    ensures !s.imagesLoaded ==> r == s
    ensures s.imagesLoaded ==> r.phase == Playing && r.world == ResetWorld(cw, ch)
    ensures r.current == s.current && r.levels == s.levels && r.highScore == s.highScore
    ensures r.imagesLoaded == s.imagesLoaded
    ensures Valid(s) ==> Valid(r)
  {
    if !s.imagesLoaded then s
    else s.(world := ResetWorld(cw, ch), phase := Playing)
  }

  /** `endGame` with the round's final score: the round is over and the
      high score becomes the larger of the two. */
  function EndGame(s: Session, score: int): (r: Session)
    ensures r.phase == Over
    ensures r.highScore >= s.highScore && r.highScore >= score
    ensures r.highScore == s.highScore || r.highScore == score
    ensures r.world == s.world && r.current == s.current && r.levels == s.levels
    ensures r.imagesLoaded == s.imagesLoaded
    ensures Valid(s) ==> Valid(r)
  {
    s.(phase := Over, highScore := if score > s.highScore then score else s.highScore)
  }

  function WithVelocity(w: World, vel: real): World {
    w.(player := w.player.(vel := vel))
  }

  /** `jump`: while playing, the velocity becomes the level's lift whatever
      it was; from ready or over with images decoded, a new round starts and
      then gets the same impulse; otherwise nothing happens. */
  function Jump(s: Session, cw: real, ch: real): (r: Session)
    ensures s.phase == Playing ==>
      && r.phase == Playing
      && r.world.player.vel == s.current.lift
      && r.world.player.y == s.world.player.y && r.world.player.x == s.world.player.x
      && r.world.player.w == s.world.player.w && r.world.player.h == s.world.player.h
      && r.world.pipes == s.world.pipes && r.world.score == s.world.score
      && r.world.frame == s.world.frame
    ensures (s.phase == Ready || s.phase == Over) && s.imagesLoaded ==>
      && r.phase == Playing
      && r.world.player.vel == s.current.lift
      && r.world.player.y == ch / 2.0 && r.world.player.x == StartX
      && r.world.player.w == ResetWorld(cw, ch).player.w && r.world.player.h == ResetWorld(cw, ch).player.h
      && r.world.pipes == [] && r.world.score == 0 && r.world.frame == 0
    ensures s.phase == Loading || (s.phase != Playing && !s.imagesLoaded) ==> r == s
    ensures r.current == s.current && r.levels == s.levels && r.highScore == s.highScore
    ensures r.imagesLoaded == s.imagesLoaded
    ensures Valid(s) ==> Valid(r)
  {
    if s.phase == Playing then
      s.(world := WithVelocity(s.world, s.current.lift))
    else if (s.phase == Ready || s.phase == Over) && s.imagesLoaded then
      var started := StartGame(s, cw, ch);
      started.(world := WithVelocity(started.world, s.current.lift))
    else
      s
  }

  /** `handleLevelChange`: an id that names no level changes nothing; a known
      id becomes current, and a running or finished round is reset to ready. */
  function HandleLevelChange(s: Session, id: string, cw: real, ch: real): (r: Session)
    ensures (forall k :: 0 <= k < |s.levels| ==> s.levels[k].id != id) ==> r == s
    ensures (exists k :: 0 <= k < |s.levels| && s.levels[k].id == id) ==>
      && r.current.id == id && r.current in s.levels
      && (exists k :: 0 <= k < |s.levels| && s.levels[k] == r.current
            && forall j :: 0 <= j < k ==> s.levels[j].id != id)
      && (s.phase == Playing || s.phase == Over ==> r.phase == Ready && r.world == ResetWorld(cw, ch))
      && (s.phase == Loading || s.phase == Ready ==> r.phase == s.phase && r.world == s.world)
    ensures r.levels == s.levels && r.highScore == s.highScore
    ensures r.imagesLoaded == s.imagesLoaded
    ensures Valid(s) ==> Valid(r)
  {
    var i := FindIndex(s.levels, id);
    if i == -1 then s
    else
      var chosen := s.(current := s.levels[i]);
      if s.phase == Playing || s.phase == Over then
        chosen.(world := ResetWorld(cw, ch), phase := Ready)
      else
        chosen
  }

  /** The remote-levels effect: nothing while the remote list is absent;
      otherwise the presets merged with it become the level list and the
      current level is looked up again by id, falling back to the first. */
  function OnRemoteLevels(s: Session, remote: Option<seq<Level>>): (r: Session)
    ensures remote.None? ==> r == s
    ensures remote.Some? ==>
      && r.levels == Merge(DefaultLevels, remote.value)
      && r.current in r.levels
      && ((exists k :: 0 <= k < |r.levels| && r.levels[k].id == s.current.id) ==>
            && r.current.id == s.current.id
            && (exists k :: 0 <= k < |r.levels| && r.levels[k] == r.current
                  && forall j :: 0 <= j < k ==> r.levels[j].id != s.current.id))
      && ((forall k :: 0 <= k < |r.levels| ==> r.levels[k].id != s.current.id) ==> r.current == r.levels[0])
    ensures r.phase == s.phase && r.world == s.world && r.highScore == s.highScore
    ensures r.imagesLoaded == s.imagesLoaded
    ensures Valid(s) ==> Valid(r)
  {
    match remote
    case None => s
    case Some(rs) =>
      var merged := Merge(DefaultLevels, rs);
      MergedDefaultsKeepSlots(rs);
      s.(levels := merged, current := ChooseCurrent(merged, s.current.id))
  }

  /** The effect on the two loading flags: ready once neither the levels nor
      the assets are loading, loading otherwise. */
  function OnDataLoading(s: Session, levelsLoading: bool, assetsLoading: bool): (r: Session)
    ensures r.phase == Ready <==> !levelsLoading && !assetsLoading
    ensures r.phase == Loading <==> levelsLoading || assetsLoading
    ensures r.world == s.world && r.current == s.current && r.highScore == s.highScore
    ensures r.levels == s.levels && r.imagesLoaded == s.imagesLoaded
    ensures Valid(s) ==> Valid(r)
  {
    s.(phase := if !levelsLoading && !assetsLoading then Ready else Loading)
  }

  /** The images finished decoding. The effect fires only on the change of
      the flag; before play it resets the round and shows the ready screen. */
  function OnImagesDecoded(s: Session, cw: real, ch: real): (r: Session)
    ensures r.imagesLoaded
    ensures s.imagesLoaded ==> r == s
    ensures !s.imagesLoaded && (s.phase == Loading || s.phase == Ready) ==>
      r.phase == Ready && r.world == ResetWorld(cw, ch)
    ensures !s.imagesLoaded && (s.phase == Playing || s.phase == Over) ==>
      r.phase == s.phase && r.world == s.world
    ensures r.current == s.current && r.levels == s.levels && r.highScore == s.highScore
    ensures HasLevel(s) ==> Valid(r)
  {
    if s.imagesLoaded then s
    else
      var loaded := s.(imagesLoaded := true);
      if s.phase == Loading || s.phase == Ready then
        loaded.(world := ResetWorld(cw, ch), phase := Ready)
      else
        loaded
  }

  /** The asset-document effect, run when the stored assets change and are
      no longer loading. With every image URL at hand the decoded images are
      dropped until the new ones decode, whatever the phase; with one missing
      the effect stops before touching the flag. */
  function OnAssetsChanged(s: Session, urlsComplete: bool): (r: Session)
    ensures urlsComplete ==> !r.imagesLoaded
    ensures !urlsComplete ==> r == s
    ensures r.phase == s.phase && r.world == s.world
    ensures r.current == s.current && r.levels == s.levels && r.highScore == s.highScore
    ensures HasLevel(s) ==> HasLevel(r)
    ensures urlsComplete && s.phase == Playing ==> !Valid(r)
  {
    if urlsComplete then s.(imagesLoaded := false) else s
  }

  /** The resize effect, which also runs on every phase change: outside a
      running round the round is reset for the new canvas size. */
  function Resize(s: Session, cw: real, ch: real): (r: Session)
    ensures s.phase == Playing ==> r == s
    ensures s.phase != Playing ==> r.world == ResetWorld(cw, ch)
    ensures r.phase == s.phase && r.current == s.current && r.levels == s.levels
    ensures r.highScore == s.highScore && r.imagesLoaded == s.imagesLoaded
    ensures Valid(s) ==> Valid(r)
  {
    if s.phase == Playing then s else s.(world := ResetWorld(cw, ch))
  }

  /** Ending a round fires the resize effect on the phase change, so the
      finished round's pipes and score are cleared while the high score
      keeps the final score. */
  lemma EndThenResizeClears(s: Session, score: int, cw: real, ch: real)
    ensures var r := Resize(EndGame(s, score), cw, ch);
      && r.phase == Over
      && r.world.pipes == [] && r.world.score == 0
      && r.highScore >= score && r.highScore >= s.highScore
  {
  }

  /** One animation frame: the loop runs only while playing, and only while
      the canvas is mounted, which it is not while the images are being
      decoded; a frame that asks for the end finishes the round with the
      frame's score. */
  function AnimationFrame(s: Session, cw: real, ch: real, skins: nat, d: Draws): (r: Session)
    requires ValidDraws(d)
    ensures s.phase != Playing || !s.imagesLoaded ==> r == s
    ensures s.phase == Playing && s.imagesLoaded ==>
      && r.world == Tick(s.current, cw, ch, skins, s.world, d.top, d.skin).world
      && (r.phase == Over <==> Tick(s.current, cw, ch, skins, s.world, d.top, d.skin).ended)
      && (r.phase == Over ==> r.highScore >= r.world.score)
    ensures r.phase == Playing || r.phase == s.phase || r.phase == Over
    ensures r.world.score >= s.world.score
    ensures r.highScore >= s.highScore
    ensures r.current == s.current && r.levels == s.levels && r.imagesLoaded == s.imagesLoaded
    ensures Valid(s) ==> Valid(r)
  {
    if s.phase != Playing || !s.imagesLoaded then s
    else
      var t := Tick(s.current, cw, ch, skins, s.world, d.top, d.skin);
      var moved := s.(world := t.world);
      if t.ended then EndGame(moved, t.world.score) else moved
  }

  predicate AllValid(ds: seq<Draws>) {
    forall i :: 0 <= i < |ds| ==> ValidDraws(ds[i])
  }

  /** A run of animation frames with no input in between. */
  function Run(s: Session, cw: real, ch: real, skins: nat, ds: seq<Draws>): (r: Session)
    requires AllValid(ds)
    ensures r.current == s.current && r.levels == s.levels && r.imagesLoaded == s.imagesLoaded
    ensures Valid(s) ==> Valid(r)
    decreases |ds|
  {
    if |ds| == 0 then s
    else Run(AnimationFrame(s, cw, ch, skins, ds[0]), cw, ch, skins, ds[1..])
  }

  /** Without input the score and the high score never decrease, the level
      stays, and a finished round stays finished. */
  lemma {:induction false} RunMonotone(s: Session, cw: real, ch: real, skins: nat, ds: seq<Draws>)
    requires AllValid(ds)
    ensures var r := Run(s, cw, ch, skins, ds);
      && r.world.score >= s.world.score
      && r.highScore >= s.highScore
      && (s.phase == Over ==> r == s)
    decreases |ds|
  {
    if |ds| > 0 {
      RunMonotone(AnimationFrame(s, cw, ch, skins, ds[0]), cw, ch, skins, ds[1..]);
    }
  }

  /** A round that ends during a run leaves a high score at least as large
      as its final score. */
  lemma {:induction false} RunEndRecordsScore(s: Session, cw: real, ch: real, skins: nat, ds: seq<Draws>)
    requires AllValid(ds)
    requires s.phase == Playing
    ensures var r := Run(s, cw, ch, skins, ds);
      r.phase == Over ==> r.highScore >= r.world.score
    decreases |ds|
  {
    if |ds| > 0 {
      var next := AnimationFrame(s, cw, ch, skins, ds[0]);
      if next.phase == Playing {
        RunEndRecordsScore(next, cw, ch, skins, ds[1..]);
      } else {
        RunMonotone(next, cw, ch, skins, ds[1..]);
      }
    }
  }

  /** Picking the same level twice is picking it once: the first pick has
      already left a running or finished round at the ready screen. */
  lemma HandleLevelChangeIdempotent(s: Session, id: string, cw: real, ch: real)
    ensures var once := HandleLevelChange(s, id, cw, ch);
      HandleLevelChange(once, id, cw, ch) == once
  {
  }

  /** The events the page reacts to. `Resized` carries the new CSS size of
      the canvas, which the later events then use. */
  datatype Event =
    | JumpPressed
    | LevelPicked(id: string)
    | RemoteLevels(remote: Option<seq<Level>>)
    | DataLoading(levelsLoading: bool, assetsLoading: bool)
    | AssetsChanged(urlsComplete: bool)
    | ImagesDecoded
    | Resized(newWidth: real, newHeight: real)
    | Frame(draws: Draws)

  predicate WellFormed(e: Event) {
    e.Frame? ==> ValidDraws(e.draws)
  }

  predicate AllWellFormed(es: seq<Event>) {
    forall i :: 0 <= i < |es| ==> WellFormed(es[i])
  }

  /** No event reloads the assets. */
  predicate NoReload(es: seq<Event>) {
    forall i :: 0 <= i < |es| ==> !es[i].AssetsChanged?
  }

  /** The page's reaction to one event on a `cw` x `ch` canvas. */
  function Step(s: Session, cw: real, ch: real, skins: nat, e: Event): (r: Session)
    requires WellFormed(e)
    ensures HasLevel(s) ==> HasLevel(r)
    ensures Valid(s) && !e.AssetsChanged? ==> Valid(r)
    ensures e.AssetsChanged? && e.urlsComplete && s.phase == Playing ==> !Valid(r)
    ensures r.highScore >= s.highScore
  {
    match e
    case JumpPressed => Jump(s, cw, ch)
    case LevelPicked(id) => HandleLevelChange(s, id, cw, ch)
    case RemoteLevels(remote) => OnRemoteLevels(s, remote)
    case DataLoading(l, a) => OnDataLoading(s, l, a)
    case AssetsChanged(complete) => OnAssetsChanged(s, complete)
    case ImagesDecoded => OnImagesDecoded(s, cw, ch)
    case Resized(w, h) => Resize(s, w, h)
    case Frame(d) => AnimationFrame(s, cw, ch, skins, d)
  }

  /** The canvas size after an event: a resize replaces it. */
  function CanvasAfter(cw: real, ch: real, e: Event): (real, real) {
    if e.Resized? then (e.newWidth, e.newHeight) else (cw, ch)
  }

  function Steps(s: Session, cw: real, ch: real, skins: nat, es: seq<Event>): Session
    requires AllWellFormed(es)
    decreases |es|
  {
    if |es| == 0 then s
    else
      var size := CanvasAfter(cw, ch, es[0]);
      Steps(Step(s, cw, ch, skins, es[0]), size.0, size.1, skins, es[1..])
  }

  /** Whatever the events, there stays a listed level to play and the high
      score never goes down; without an asset reload the session stays
      valid. */
  lemma {:induction false} StepsKeepValid(s: Session, cw: real, ch: real, skins: nat, es: seq<Event>)
    requires HasLevel(s) && AllWellFormed(es)
    ensures HasLevel(Steps(s, cw, ch, skins, es))
    ensures Valid(s) && NoReload(es) ==> Valid(Steps(s, cw, ch, skins, es))
    ensures Steps(s, cw, ch, skins, es).highScore >= s.highScore
    decreases |es|
  {
    if |es| > 0 {
      var size := CanvasAfter(cw, ch, es[0]);
      assert NoReload(es) ==> NoReload(es[1..]) by {
        if NoReload(es) {
          forall i | 0 <= i < |es[1..]| ensures !es[1..][i].AssetsChanged? {
            assert es[1..][i] == es[i + 1];
          }
        }
      }
      StepsKeepValid(Step(s, cw, ch, skins, es[0]), size.0, size.1, skins, es[1..]);
    }
  }

  /** Every session reachable from the first render has a listed level and
      a high score at least the stored one; it is valid when no asset reload
      happened on the way. */
  lemma ReachableSessionsValid(storedHigh: int, cw: real, ch: real, skins: nat, es: seq<Event>)
    requires AllWellFormed(es)
    ensures HasLevel(Steps(InitialSession(storedHigh), cw, ch, skins, es))
    ensures NoReload(es) ==> Valid(Steps(InitialSession(storedHigh), cw, ch, skins, es))
    ensures Steps(InitialSession(storedHigh), cw, ch, skins, es).highScore >= storedHigh
  {
    StepsKeepValid(InitialSession(storedHigh), cw, ch, skins, es);
  }

  /** A reload during play leaves a round in the playing phase without
      images: frames then change nothing, and the next decode makes the
      session valid again without resetting the round. */
  lemma ReloadDuringPlayStalls(s: Session, cw: real, ch: real, skins: nat, d: Draws)
    requires ValidDraws(d) && HasLevel(s) && s.phase == Playing
    ensures var stalled := OnAssetsChanged(s, true);
      && stalled.phase == Playing && !stalled.imagesLoaded
      && AnimationFrame(stalled, cw, ch, skins, d) == stalled
      && Valid(OnImagesDecoded(stalled, cw, ch))
      && OnImagesDecoded(stalled, cw, ch).world == s.world
  {
  }
}

=== FILE: simulation.dfy ===
/** One frame of the game loop (src/app/page.tsx, `gameLoop`): gravity,
    the vertical bounds check, pipe movement, the rectangle collision test,
    scoring, garbage collection of pipes that left the screen, and the
    periodic spawn of a new pipe. Randomness enters as two draws in [0, 1). */
module Simulation {
  import opened Common
  import opened GameConfig

  /** The player's box and vertical velocity. Canvas y grows downwards. */
  datatype Player = Player(x: real, y: real, w: real, h: real, vel: real)

  /** A pipe pair: `top` is the height of the upper segment, `bottom` the
      height of the lower one; `skin` indexes the pipe image it was drawn
      with. */
  datatype Pipe = Pipe(x: real, w: real, top: real, bottom: real, speed: real, passed: bool, skin: nat)

  /** The per-round entity store: player, live pipes, frame counter, score. */
  datatype World = World(player: Player, pipes: seq<Pipe>, frame: nat, score: nat)

  /** A tick's new world and whether it asked for the round to end. */
  datatype TickResult = TickResult(world: World, ended: bool)

  datatype Rect = Rect(x: real, y: real, w: real, h: real)

  /** Pipes whose right edge is at or left of this line are dropped. */
  const OffscreenLimit: real := -40.0
  /** Smallest spawned top-segment height. */
  const MinTop: real := 90.0
  /** Space kept below the gap when choosing the largest top height. */
  const BottomMargin: real := 120.0
  /** Spawned pipes start this far right of the canvas edge. */
  const SpawnOffset: real := 30.0

  // ---------------------------------------------------------------------
  // Collision geometry

  /** `rectCol`: strict overlap of two axis-aligned rectangles. */
  predicate RectCol(a: Rect, b: Rect) {
    a.x < b.x + b.w && a.x + a.w > b.x && a.y < b.y + b.h && a.y + a.h > b.y
  }

  /** The point lies strictly inside the rectangle. */
  ghost predicate Inside(r: Rect, px: real, py: real) {
    r.x < px < r.x + r.w && r.y < py < r.y + r.h
  }

  lemma RectColSymmetric(a: Rect, b: Rect)
    ensures RectCol(a, b) == RectCol(b, a)
  {
  }

  /** For rectangles with positive size, `rectCol` holds exactly when the
      two rectangles share an interior point. */
  lemma RectColIffCommonPoint(a: Rect, b: Rect)
    requires a.w > 0.0 && a.h > 0.0 && b.w > 0.0 && b.h > 0.0
    ensures RectCol(a, b) <==> exists px, py :: Inside(a, px, py) && Inside(b, px, py)
  {
    if RectCol(a, b) {
      var px := (Max(a.x, b.x) + Min(a.x + a.w, b.x + b.w)) / 2.0;
      var py := (Max(a.y, b.y) + Min(a.y + a.h, b.y + b.h)) / 2.0;
      assert Inside(a, px, py) && Inside(b, px, py);
    }
  }

  function PlayerRect(pl: Player): Rect {
    Rect(pl.x, pl.y, pl.w, pl.h)
  }

  /** The upper segment hangs from the top of the canvas. */
  function TopSegment(p: Pipe): Rect {
    Rect(p.x, 0.0, p.w, p.top)
  }

  /** The lower segment stands on the bottom of a canvas of height `ch`. */
  function BottomSegment(p: Pipe, ch: real): Rect {
    Rect(p.x, ch - p.bottom, p.w, p.bottom)
  }

  predicate HitsPipe(pl: Player, p: Pipe, ch: real) {
    RectCol(PlayerRect(pl), TopSegment(p)) || RectCol(PlayerRect(pl), BottomSegment(p, ch))
  }

  /** A player wholly inside the gap between the segments is never hit. */
  lemma InsideGapIsSafe(pl: Player, p: Pipe, ch: real)
    requires p.top <= pl.y && pl.y + pl.h <= ch - p.bottom
    ensures !HitsPipe(pl, p, ch)
  {
  }

  /** A player that overlaps the pipe's columns and reaches above the gap is
      hit by the upper segment. */
  lemma AboveGapIsHit(pl: Player, p: Pipe, ch: real)
    requires pl.x < p.x + p.w && p.x < pl.x + pl.w
    requires pl.y < p.top && 0.0 < pl.y + pl.h
    ensures HitsPipe(pl, p, ch)
  {
  }

  // ---------------------------------------------------------------------
  // Player motion

  /** Gravity first changes the velocity, then the velocity moves the player. */
  function Fall(pl: Player, gravity: real): (r: Player)
    ensures r.vel == pl.vel + gravity
    ensures r.y == pl.y + r.vel
    ensures r.x == pl.x && r.w == pl.w && r.h == pl.h
  {
    var vel := pl.vel + gravity;
    pl.(vel := vel, y := pl.y + vel)
  }

  predicate OutOfBounds(pl: Player, ch: real) {
    pl.y < 0.0 || pl.y + pl.h > ch
  }

  // ---------------------------------------------------------------------
  // Pipe motion and scoring

  /** Move a pipe left by its own speed and mark it passed once its right
      edge is left of the player's x. */
  function Advance(p: Pipe, px: real): (r: Pipe)
    ensures r.x == p.x - p.speed
    ensures r.w == p.w && r.top == p.top && r.bottom == p.bottom
    ensures r.speed == p.speed && r.skin == p.skin
    ensures p.passed ==> r.passed
    ensures !p.passed ==> (r.passed <==> r.x + r.w < px)
  {
    var x := p.x - p.speed;
    p.(x := x, passed := p.passed || x + p.w < px)
  }

  function AdvanceAll(ps: seq<Pipe>, px: real): (r: seq<Pipe>)
    ensures |r| == |ps|
    ensures forall i :: 0 <= i < |ps| ==> r[i] == Advance(ps[i], px)
  {
    seq(|ps|, i requires 0 <= i < |ps| => Advance(ps[i], px))
  }

  /** The number of pipes a tick newly marks as passed: each earns a point. */
  function Gained(ps: seq<Pipe>, px: real): (n: nat)
    ensures n <= |ps|
  {
    if |ps| == 0 then 0
    else (if !ps[0].passed && Advance(ps[0], px).passed then 1 else 0) + Gained(ps[1..], px)
  }

  predicate IsPassed(p: Pipe) {
    p.passed
  }

  function CountPassed(ps: seq<Pipe>): nat {
    |Filter(ps, IsPassed)|
  }

  predicate OnScreen(p: Pipe) {
    p.x + p.w > OffscreenLimit
  }

  predicate OffScreen(p: Pipe) {
    !OnScreen(p)
  }

  /** Advancing converts exactly the gained pipes from not-passed to passed:
      the passed count grows by the points a tick awards. */
  lemma {:induction false} AdvanceCountsGained(ps: seq<Pipe>, px: real)
    ensures CountPassed(AdvanceAll(ps, px)) == CountPassed(ps) + Gained(ps, px)
    decreases |ps|
  {
    if |ps| > 0 {
      var adv := AdvanceAll(ps, px);
      assert adv[1..] == AdvanceAll(ps[1..], px);
      CountPassedCons(adv);
      CountPassedCons(ps);
      AdvanceCountsGained(ps[1..], px);
    }
  }

  lemma CountPassedCons(ps: seq<Pipe>)
    requires |ps| > 0
    ensures CountPassed(ps) == (if ps[0].passed then 1 else 0) + CountPassed(ps[1..])
  {
  }

  // ---------------------------------------------------------------------
  // Spawning

  /** `frame % spawnRate === 0` on JavaScript numbers: a zero rate yields NaN
      and never spawns; a negative rate behaves like its magnitude because
      the remainder takes the sign of the dividend. */
  function SpawnDue(frame: nat, rate: int): (due: bool)
    ensures due <==> rate != 0 && frame % (if rate < 0 then -rate else rate) == 0
    ensures rate > 0 ==> (due <==> frame % rate == 0)
  {
    JsRem(frame, rate) == Some(0)
  }

  /** JavaScript's `a % b` on integral numbers: NaN (here `None`) for a zero
      divisor, otherwise the remainder of division truncated toward zero,
      which takes the sign of the dividend. */
  function JsRem(a: int, b: int): (r: Option<int>)
    ensures r.None? <==> b == 0
    ensures r.Some? && a >= 0 ==> 0 <= r.value < (if b < 0 then -b else b)
    ensures r.Some? && a < 0 ==> -(if b < 0 then -b else b) < r.value <= 0
    ensures r.Some? ==> (a - r.value) % (if b < 0 then -b else b) == 0
  {
    if b == 0 then None
    else
      var d := if b < 0 then -b else b;
      var m := (if a < 0 then -a else a) % d;
      TruncRemDivides(a, d);
      Some(if a < 0 then -m else m)
  }

  /** The truncated remainder of `a` by a positive `d` leaves a multiple of
      `d` behind. */
  lemma TruncRemDivides(a: int, d: int)
    requires d > 0
    ensures var m := (if a < 0 then -a else a) % d;
      (a - (if a < 0 then -m else m)) % d == 0
  {
    var n := if a < 0 then -a else a;
    var q := n / d;
    var m := n % d;
    assert n - m == q * d;
    if a < 0 {
      assert a - (-m) == (-q) * d;
      DivUnique(a + m, d, -q, 0);
    } else {
      DivUnique(a - m, d, q, 0);
    }
  }

  /** `Math.min(140, Math.max(60, cw * 0.12))`. */
  function PipeWidth(cw: real): (w: real)
    ensures 60.0 <= w <= 140.0
    ensures 60.0 <= cw * 0.12 <= 140.0 ==> w == cw * 0.12
    ensures cw * 0.12 <= 60.0 ==> w == 60.0
    ensures cw * 0.12 >= 140.0 ==> w == 140.0
  {
    Min(140.0, Max(60.0, cw * 0.12))
  }

  /** `Math.floor(minTop + r * (maxTop - minTop))` with
      `maxTop = ch - gap - 120`. */
  function TopHeight(ch: real, gap: real, r: real): (top: real)
    requires 0.0 <= r < 1.0
    ensures top == top.Floor as real
    ensures top <= MinTop + r * (ch - gap - BottomMargin - MinTop) < top + 1.0
    ensures ch - gap - BottomMargin >= MinTop ==> MinTop <= top <= ch - gap - BottomMargin
  {
    var span := ch - gap - BottomMargin - MinTop;
    var t := MinTop + r * span;
    if span >= 0.0 then
      ScaledDrawBounds(r, span);
      t.Floor as real
    else
      t.Floor as real
  }

  /** A draw in [0, 1) scales a non-negative span into [0, span), or to 0
      when the span is 0. */
  lemma ScaledDrawBounds(r: real, span: real)
    requires 0.0 <= r < 1.0 && span >= 0.0
    ensures 0.0 <= r * span <= span
    ensures span > 0.0 ==> r * span < span
  {
    assert span - r * span == (1.0 - r) * span;
  }

  /** `Math.floor(Math.random() * pipeImgs.length)`. */
  function SkinIndex(skins: nat, r: real): (k: nat)
    requires skins > 0 && 0.0 <= r < 1.0
    ensures k < skins
    ensures k as real <= r * skins as real < k as real + 1.0
  {
    var s := skins as real;
    ScaledDrawBounds(r, s);
    (r * s).Floor
  }

  /** The pipe a spawn frame appends, just right of the canvas. */
  function NewPipe(L: Level, cw: real, ch: real, skins: nat, r1: real, r2: real): (p: Pipe)
    requires skins > 0 && 0.0 <= r1 < 1.0 && 0.0 <= r2 < 1.0
    ensures p.x == cw + SpawnOffset && !p.passed && p.speed == L.speed
    ensures p.w == PipeWidth(cw) && 60.0 <= p.w <= 140.0
    ensures p.top == TopHeight(ch, L.gap, r1)
    ensures p.top + L.gap + p.bottom == ch
    ensures ch - L.gap - BottomMargin >= MinTop ==> MinTop <= p.top && p.bottom >= BottomMargin
    ensures p.skin == SkinIndex(skins, r2) && p.skin < skins
  {
    var top := TopHeight(ch, L.gap, r1);
    Pipe(cw + SpawnOffset, PipeWidth(cw), top, ch - (top + L.gap), L.speed, false, SkinIndex(skins, r2))
  }

  // ---------------------------------------------------------------------
  // The tick

  /** One frame of the loop on a canvas of size `cw` x `ch` with `skins`
      decoded pipe images. With no pipe image the loop returns before doing
      anything. `ended` reports that the frame called `endGame`: the rest of
      the frame still runs, as in the source. */
  function Tick(L: Level, cw: real, ch: real, skins: nat, w: World, r1: real, r2: real): (t: TickResult)
    requires 0.0 <= r1 < 1.0 && 0.0 <= r2 < 1.0
    ensures skins == 0 ==> t == TickResult(w, false)
    ensures skins > 0 ==> t.world.frame == w.frame + 1
    ensures skins > 0 ==> t.world.player.vel == w.player.vel + L.gravity
    ensures skins > 0 ==> t.world.player.y == w.player.y + t.world.player.vel
    ensures skins > 0 ==> t.world.player.x == w.player.x && t.world.player.w == w.player.w && t.world.player.h == w.player.h
    ensures skins > 0 ==> w.score <= t.world.score <= w.score + |w.pipes|
  {
    if skins == 0 then TickResult(w, false)
    else
      var pl := Fall(w.player, L.gravity);
      var moved := AdvanceAll(w.pipes, pl.x);
      var ended := OutOfBounds(pl, ch) || exists i | 0 <= i < |moved| :: HitsPipe(pl, moved[i], ch);
      var frame := w.frame + 1;
      TickResult(World(pl, Collect(L, cw, ch, skins, moved, frame, r1, r2), frame, w.score + Gained(w.pipes, pl.x)), ended)
  }

  /** The pipe list at the end of a frame: the moved pipes still on screen,
      followed by a new pipe when frame `frame` is a spawn frame. */
  function Collect(L: Level, cw: real, ch: real, skins: nat, moved: seq<Pipe>, frame: nat, r1: real, r2: real): (ps: seq<Pipe>)
    requires skins > 0 && 0.0 <= r1 < 1.0 && 0.0 <= r2 < 1.0
    ensures SpawnDue(frame, L.spawnRate) ==> |ps| > 0 && ps[..|ps| - 1] == Filter(moved, OnScreen)
    ensures SpawnDue(frame, L.spawnRate) ==> |ps| > 0 && ps[|ps| - 1] == NewPipe(L, cw, ch, skins, r1, r2)
    ensures !SpawnDue(frame, L.spawnRate) ==> ps == Filter(moved, OnScreen)
    ensures CountPassed(ps) == CountPassed(Filter(moved, OnScreen))
  {
    var kept := Filter(moved, OnScreen);
    if SpawnDue(frame, L.spawnRate) then
      var np := NewPipe(L, cw, ch, skins, r1, r2);
      FilterConcat(kept, [np], IsPassed);
      assert Filter([np], IsPassed) == [] by {
        assert [np][1..] == [];
      }
      assert (kept + [np])[..|kept|] == kept;
      kept + [np]
    else
      kept
  }

  /** The player and one of the pipe's segments share an interior point. */
  ghost predicate TouchesPipe(pl: Player, p: Pipe, ch: real) {
    exists px, py :: Inside(PlayerRect(pl), px, py)
      && (Inside(TopSegment(p), px, py) || Inside(BottomSegment(p, ch), px, py))
  }

  /** A shared interior point is a hit; a hit is a shared interior point
      unless the segment hit has no height, and a hit on such a segment
      already puts the player outside the canvas. */
  lemma HitsPipeIffTouches(pl: Player, p: Pipe, ch: real)
    requires pl.w > 0.0 && pl.h > 0.0 && p.w > 0.0
    ensures TouchesPipe(pl, p, ch) ==> HitsPipe(pl, p, ch)
    ensures HitsPipe(pl, p, ch) ==> TouchesPipe(pl, p, ch) || OutOfBounds(pl, ch)
  {
    if p.top > 0.0 {
      RectColIffCommonPoint(PlayerRect(pl), TopSegment(p));
    }
    if p.bottom > 0.0 {
      RectColIffCommonPoint(PlayerRect(pl), BottomSegment(p, ch));
    }
  }

  /** The round ends exactly when the fallen player leaves the canvas
      vertically or shares an interior point with a segment of a moved pipe
      (player and pipes of positive width and height; segments may have any
      height, a spawn on a short canvas gives a top of 0 or less). */
  lemma TickEndsIffCollision(L: Level, cw: real, ch: real, skins: nat, w: World, r1: real, r2: real)
    requires 0.0 <= r1 < 1.0 && 0.0 <= r2 < 1.0 && skins > 0
    requires w.player.w > 0.0 && w.player.h > 0.0
    requires forall i :: 0 <= i < |w.pipes| ==> w.pipes[i].w > 0.0
    ensures var pl := Tick(L, cw, ch, skins, w, r1, r2).world.player;
      Tick(L, cw, ch, skins, w, r1, r2).ended <==>
        || pl.y < 0.0 || pl.y + pl.h > ch
        || exists i :: 0 <= i < |w.pipes| && TouchesPipe(pl, Advance(w.pipes[i], pl.x), ch)
  {
    var t := Tick(L, cw, ch, skins, w, r1, r2);
    var pl := t.world.player;
    var moved := AdvanceAll(w.pipes, pl.x);
    forall i | 0 <= i < |w.pipes|
      ensures TouchesPipe(pl, moved[i], ch) ==> HitsPipe(pl, moved[i], ch)
      ensures HitsPipe(pl, moved[i], ch) ==> TouchesPipe(pl, moved[i], ch) || OutOfBounds(pl, ch)
    {
      HitsPipeIffTouches(pl, moved[i], ch);
    }
  }

  /** Score bookkeeping across the whole round: if the score equals the
      passed pipes already collected (`retired`) plus the passed pipes still
      on screen, the same holds after a tick, with the passed pipes that this
      tick collected added to `retired`. So the score counts every pipe ever
      marked passed, each exactly once. */
  lemma TickKeepsScoreLedger(L: Level, cw: real, ch: real, skins: nat, w: World, r1: real, r2: real, retired: nat)
    requires 0.0 <= r1 < 1.0 && 0.0 <= r2 < 1.0 && skins > 0
    requires w.score == retired + CountPassed(w.pipes)
    ensures var t := Tick(L, cw, ch, skins, w, r1, r2);
      var dropped := Filter(AdvanceAll(w.pipes, w.player.x), OffScreen);
      t.world.score == retired + CountPassed(dropped) + CountPassed(t.world.pipes)
  {
    var px := w.player.x;
    var adv := AdvanceAll(w.pipes, px);
    AdvanceCountsGained(w.pipes, px);
    FilterPartitionCount(adv, OnScreen, OffScreen, IsPassed);
  }

  /** After a tick every pipe is on screen (right edge beyond -40); the
      pipes other than a freshly spawned one are exactly the moved pipes that
      are still on screen, in their original order. */
  lemma TickCollectsPipes(L: Level, cw: real, ch: real, skins: nat, w: World, r1: real, r2: real)
    requires 0.0 <= r1 < 1.0 && 0.0 <= r2 < 1.0 && skins > 0 && cw >= 0.0
    ensures var ps := Tick(L, cw, ch, skins, w, r1, r2).world.pipes;
      var adv := AdvanceAll(w.pipes, w.player.x);
      var n := |ps| - (if SpawnDue(w.frame + 1, L.spawnRate) then 1 else 0);
      && 0 <= n
      && (forall i :: 0 <= i < |ps| ==> OnScreen(ps[i]))
      && IsSubseq(ps[..n], adv)
      && (forall i :: 0 <= i < |adv| && OnScreen(adv[i]) ==> adv[i] in ps[..n])
  {
    var ps := Tick(L, cw, ch, skins, w, r1, r2).world.pipes;
    var adv := AdvanceAll(w.pipes, w.player.x);
    var kept := Filter(adv, OnScreen);
    FilterIsSubseq(adv, OnScreen);
    if SpawnDue(w.frame + 1, L.spawnRate) {
      var np := NewPipe(L, cw, ch, skins, r1, r2);
      assert ps == kept + [np];
      assert ps[..|ps| - 1] == kept;
      assert OnScreen(np);
    } else {
      assert ps == kept;
      assert ps[..|ps|] == kept;
    }
  }

  /** The frame counter is bumped before the spawn test, and the spawn
      appends one pipe with the spawn geometry. */
  lemma TickSpawns(L: Level, cw: real, ch: real, skins: nat, w: World, r1: real, r2: real)
    requires 0.0 <= r1 < 1.0 && 0.0 <= r2 < 1.0 && skins > 0
    ensures var ps := Tick(L, cw, ch, skins, w, r1, r2).world.pipes;
      var kept := Filter(AdvanceAll(w.pipes, w.player.x), OnScreen);
      && (SpawnDue(w.frame + 1, L.spawnRate) ==>
            |ps| == |kept| + 1 && ps[|ps| - 1] == NewPipe(L, cw, ch, skins, r1, r2))
      && (!SpawnDue(w.frame + 1, L.spawnRate) ==> ps == kept)
  {
  }

  /** Spawns on frames 1..n. */
  function SpawnsUpTo(n: nat, rate: int): nat {
    if n == 0 then 0 else SpawnsUpTo(n - 1, rate) + (if SpawnDue(n, rate) then 1 else 0)
  }

  /** Over the first `n` frames of a round exactly `n / |spawnRate|` pipes
      are spawned, and none at all for a zero rate. */
  lemma {:induction false} SpawnsEveryRateFrames(n: nat, rate: int)
    ensures SpawnsUpTo(n, rate) == if rate == 0 then 0 else n / (if rate < 0 then -rate else rate)
  {
    if n > 0 {
      SpawnsEveryRateFrames(n - 1, rate);
      if rate != 0 {
        DivStep(n, if rate < 0 then -rate else rate);
      }
    }
  }

  /** With a positive rate the first spawn of a round is on frame `rate`. */
  lemma FirstSpawnAtRate(rate: int)
    requires rate > 0
    ensures SpawnDue(rate, rate)
    ensures forall k: nat :: 1 <= k < rate ==> !SpawnDue(k, rate)
  {
  }

  lemma DivStep(n: int, d: int)
    requires n >= 1 && d >= 1
    ensures n / d == (n - 1) / d + (if n % d == 0 then 1 else 0)
  {
    var q := (n - 1) / d;
    var m := (n - 1) % d;
    if m == d - 1 {
      DivUnique(n, d, q + 1, 0);
    } else {
      DivUnique(n, d, q, m + 1);
    }
  }

  lemma DivUnique(n: int, d: int, q: int, m: int)
    requires d >= 1 && n == q * d + m && 0 <= m < d
    ensures n / d == q && n % d == m
  {
    var q' := n / d;
    var m' := n % d;
    assert (q - q') * d == m' - m;
    if q > q' {
      MulAtLeast(q - q', d);
    } else if q < q' {
      MulAtLeast(q' - q, d);
    }
  }

  lemma {:induction false} MulAtLeast(k: int, d: int)
    requires k >= 1 && d >= 1
    ensures k * d >= d
    decreases k
  {
    if k > 1 {
      MulAtLeast(k - 1, d);
      assert k * d == (k - 1) * d + d;
    }
  }
}

=== FILE: theme.dfy ===
/** The time-of-day theme (src/components/ThemeProvider.tsx): the hour
    classifier and the rule that puts the chosen class on the document body.
    The clock is a parameter. */
module Theme {
  import opened Common

  const Morning: string := "theme-morning"
  const Evening: string := "theme-evening"
  const Night: string := "theme-night"
  /** The afternoon theme is the page's default look: no class at all. */
  const Day: string := ""

  /** The three classes a theme change removes from the body. */
  predicate IsThemeClass(c: string) {
    c == Morning || c == Evening || c == Night
  }

  predicate NotThemeClass(c: string) {
    !IsThemeClass(c)
  }

  /** `getTheme` for the hour of the local clock. */
  function GetTheme(hour: int): (t: string)
    ensures t == Morning || t == Day || t == Evening || t == Night
    ensures t == Day || IsThemeClass(t)
  {
    if 5 <= hour < 12 then Morning
    else if 12 <= hour < 18 then Day
    else if 18 <= hour < 21 then Evening
    else Night
  }

  /** The hours of the day split into four bands. */
  lemma ThemeBands(hour: int)
    requires 0 <= hour <= 23
    ensures GetTheme(hour) == Morning <==> 5 <= hour <= 11
    ensures GetTheme(hour) == Day <==> 12 <= hour <= 17
    ensures GetTheme(hour) == Evening <==> 18 <= hour <= 20
    ensures GetTheme(hour) == Night <==> 0 <= hour <= 4 || 21 <= hour <= 23
  {
  }

  /** The body's class list after switching to `theme`: every theme class is
      removed, then the new one is added unless it is empty. */
  function ApplyTheme(classes: seq<string>, theme: string): (r: seq<string>)
    requires theme == Day || IsThemeClass(theme)
    ensures forall c :: IsThemeClass(c) ==> (c in r <==> c == theme)
    ensures Filter(r, NotThemeClass) == Filter(classes, NotThemeClass)
    ensures |r| == |Filter(classes, NotThemeClass)| + (if theme == Day then 0 else 1)
    ensures theme != Day ==> r[|r| - 1] == theme
  {
    var others := Filter(classes, NotThemeClass);
    if theme == Day then
      FilterIdempotent(classes, NotThemeClass);
      others
    else
      FilterIdempotent(classes, NotThemeClass);
      FilterConcat(others, [theme], NotThemeClass);
      assert Filter([theme], NotThemeClass) == [] by {
        assert [theme][1..] == [];
      }
      others + [theme]
  }

  /** At most one theme class is ever on the body after a switch. */
  lemma AtMostOneThemeClass(classes: seq<string>, theme: string)
    requires theme == Day || IsThemeClass(theme)
    ensures var r := ApplyTheme(classes, theme);
      forall i, j :: 0 <= i < j < |r| ==> !(IsThemeClass(r[i]) && IsThemeClass(r[j]))
    ensures |Filter(ApplyTheme(classes, theme), IsThemeClass)| <= 1
  {
    var others := Filter(classes, NotThemeClass);
    NoThemeClassSurvives(classes);
    FilterConcat(others, [theme], IsThemeClass);
    assert [theme][1..] == [];
  }

  lemma NoThemeClassSurvives(classes: seq<string>)
    ensures Filter(Filter(classes, NotThemeClass), IsThemeClass) == []
  {
    FilterNone(Filter(classes, NotThemeClass), IsThemeClass);
  }

  /** The body's class list is a set of tokens: a list without repeats
      stays without repeats after a switch, so the sequence model loses
      nothing. */
  lemma ApplyThemeKeepsDistinct(classes: seq<string>, theme: string)
    requires theme == Day || IsThemeClass(theme)
    requires Distinct(classes)
    ensures Distinct(ApplyTheme(classes, theme))
  {
    FilterDistinct(classes, NotThemeClass);
  }

  /** A later switch wins: switching twice is switching once to the second
      theme. Switching to the same theme twice changes nothing the second
      time. */
  lemma ApplyThemeLastWins(classes: seq<string>, first: string, second: string)
    requires first == Day || IsThemeClass(first)
    requires second == Day || IsThemeClass(second)
    ensures ApplyTheme(ApplyTheme(classes, first), second) == ApplyTheme(classes, second)
    ensures ApplyTheme(ApplyTheme(classes, first), first) == ApplyTheme(classes, first)
  {
  }
}
